=== FILE: README.md ===
# Voting page: election store, notification centre and wallet connection

This project models the client-side core of a browser voting application. The
application follows a smart-contract election on the Sepolia test network
through the MetaMask wallet. The model covers five parts:

- **`Voting` / `VotingStore`** (src/composables/useVoting.ts): the election
  store. It is one immutable `Store` record with ten fields: `isConnected`,
  `currentAccount`, `contractInfo`, `voterInfo`, `candidates`, `winner`,
  `isLoading`, `error`, `isAdmin` and `adminAddress`. Every operation
  except `disconnect` is a transition `Store -> Step`. A `Step` holds the next store
  and the notifications the operation posts, in order. `disconnect` posts nothing
  and is a plain `Store -> Store` function. The operations are `connect`, `disconnect`, the
  four loaders, `getWinner`, the four receipt-gated admin writes, the two ballots,
  and the `accountsChanged` callback. `shortAddress`, `canVote`,
  `isCurrentUserAdmin` and `isTransactionSuccessful` are pure functions.
- **`Notifications`** (src/composables/useNotifications.ts): the notification
  log (`seq<Notification>`) and the separate `set<string>` of pending transaction
  hashes. It covers adding with defaults, removal by id, clearing, the pending-set
  operations, the `success`/`error`/`info`/`warning` constructors and the three
  transaction helpers.
- **`ContractApi`** (src/api/contract.ts): the "Contract not initialized" guard
  that every ledger call shares, and the field-for-field mapping of the read calls.
  In `getAllCandidates` this mapping zips three parallel arrays.
- **`MetaMask`** (src/api/metamask.ts) and **`NetworkConfig`**
  (src/config/contract.ts): `connectToMetaMask`, `checkNetwork` and
  `switchToSepolia` as total decision trees over the wallet's replies.
  - `eth_requestAccounts` follows EIP-1102.
  - `wallet_switchEthereumChain` follows the Specification section of EIP-3326, with error code 4902 for an unrecognised chain.
  - `wallet_addEthereumChain` follows the Specification section of EIP-3085.

  Each function also returns the requests it issued, so properties such as
  "accounts are never requested on the wrong network" can be stated.
- **`Results`** and **`JsText`**: `Option`/`Outcome`, and the JavaScript string
  operations the code depends on. These are the index arithmetic of `slice` with
  negative and out-of-range indices, `toLowerCase` on ASCII letters, and the `||`
  fallback. Indices count characters, which matches JavaScript's UTF-16 code units
  on ASCII text.

Every awaited call is a parameter holding its outcome: `Ok(value)` or
`Err(message)` for a thrown error. This covers wallet requests, ledger reads and
writes, and transaction receipts. The wallet provider is a record of its replies,
and `None` stands for an absent `window.ethereum`. A notification's random id is
a parameter. Its automatic removal is the `Timer` value that `AddNotification`
returns, and `Expire` fires it.

Two behaviours of the code are worth stating plainly:

- A failed admin read sets `isAdmin` to false; it does not keep the previous value (src/composables/useVoting.ts:135-143).
- The store never uses the pending-transaction set of the notification centre, so a reverted write does not touch it.

## Model

| member | source | states |
|---|---|---|
| `VotingStore.Initial` | src/composables/useVoting.ts:35-53 | the store starts disconnected, with no account, not loading and not admin |
| `VotingStore.ShortAddress` | src/composables/useVoting.ts:59-62 | empty for no account; otherwise the first min(6, n) characters, "..." and the last min(4, n) characters, with the length that adds up to |
| `VotingStore.ShortAddressOfFullAddress` | src/composables/useVoting.ts:59-62 | for an account of 10 or more characters the short form is `a[..6] + "..." + a[n-4..]`, 13 characters long |
| `VotingStore.ShortAddressOfShortAccount` | src/composables/useVoting.ts:59-62 | for an account of 1 to 3 characters, JavaScript's clamping `slice` repeats the whole account on both sides of "..." |
| `VotingStore.CanVote` | src/composables/useVoting.ts:64-68 | true exactly for an authorised voter with votes left below `maxVotesPerVoter`; never for an unauthorised one |
| `VotingStore.IsCurrentUserAdmin` | src/composables/useVoting.ts:70-72 | true exactly when the admin read succeeded and the account and admin address agree character by character after lowering |
| `VotingStore.AdminCheckIgnoresCase` | src/composables/useVoting.ts:70-72 | respelling the account, the admin address or both in any way with the same lower-case form never changes `isCurrentUserAdmin`; this covers a mixed-case (EIP-55) admin address against a lower-case wallet account |
| `VotingStore.IsTransactionSuccessful` | src/composables/useVoting.ts:347-350 | true exactly for status number 1, boolean true or string "0x1" |
| `VotingStore.ReceiptEncodings` | src/composables/useVoting.ts:347-350 | 0, false, "0x0", the string "1" and the bigint 1n all count as failures |
| `Voting.Connect` | src/composables/useVoting.ts:75-99 | wallet failure: the connection and cache stay as they were, the message becomes `error`, and exactly one "Connection Failed" error is posted. Success: the account becomes current, the store is connected and all four loads run. The notices are exactly the loads' own failure reports followed by "Connected Successfully". `error` is the last failed load's message, or null when every read succeeds; in that case "Connected Successfully" is the only notice. `isLoading` is false afterwards either way |
| `Voting.ConnectWithoutMetaMask` | src/composables/useVoting.ts:75-99 | connecting without a wallet extension records and posts the not-installed message, and changes neither the connection nor the cache |
| `Voting.ConnectAsAdmin` | src/composables/useVoting.ts:135-143 | a connection whose admin read returns the account, in any letter case, makes the user admin |
| `Voting.LoadAll` | src/composables/useVoting.ts:88 | each of the four loads replaces its own entity on success and keeps it on failure; the admin flag is set exactly when the admin read succeeds. One error is posted per failed ledger read, in array order, and `error` ends as the last failure's message or unchanged |
| `Voting.RunLoadsCache` | src/composables/useVoting.ts:88 | the four loads applied in any order, even with repeats, leave a cache fixed entity by entity by which loads ran: a load that ran puts its successful read in place, and every other entity keeps its earlier value |
| `Voting.EveryCompletionOrderAgrees` | src/composables/useVoting.ts:88 | in whatever order the four `Promise.all` reads settle, the cached election is the one the array order leaves |
| `Voting.LoadsCommute` | src/composables/useVoting.ts:88 | running the four loads in reverse order leaves the same cache and posts the same notifications as a multiset, in another order |
| `Voting.Disconnect` | src/composables/useVoting.ts:101-123 | every field returns to its initial value except `isLoading`, which is kept |
| `Voting.DisconnectForgets` | src/composables/useVoting.ts:101-123 | any two stores with the same `isLoading` disconnect to the same store. Disconnecting is idempotent, and afterwards no one can vote, no one is admin and no short address is shown |
| `Voting.LoadContractInfo` | src/composables/useVoting.ts:125-133 | success replaces the metadata and posts nothing. Failure keeps it, sets `error` and posts one "Contract Error". No other field changes |
| `Voting.LoadAdminInfo` | src/composables/useVoting.ts:135-143 | `isAdmin` becomes true on success and false on failure. The address is replaced only on success. `error` is never set and nothing is posted |
| `Voting.LoadVoterInfo` | src/composables/useVoting.ts:145-155 | does nothing without an account. Otherwise success replaces the voter record; failure keeps it, sets `error` and posts one "Voter Error" |
| `Voting.LoadCandidates` | src/composables/useVoting.ts:157-165 | success replaces the list wholesale. Failure keeps it, sets `error` and posts one "Candidates Error" |
| `Voting.GetWinner` | src/composables/useVoting.ts:217-226 | success records the winner, keeps `error` and posts exactly "Winner Retrieved" / "Election winner information loaded". Failure keeps the previous winner, sets `error` and posts one "Winner Error" |
| `Voting.Reload` | src/composables/useVoting.ts:241-246 | after a confirmed write, only the entities in `Reloads(op)` change and a restart clears the winner. Exactly one error is posted per failed reload, and `error` is the last failure's message; with no failure, nothing is posted and `error` is unchanged |
| `Voting.AdminWrite` | src/composables/useVoting.ts:228-339 | does nothing without an account. Confirmed receipt: the success notice is posted first, followed only by one error per failed reload. Exactly candidates, voter record, metadata, or metadata plus candidates are reloaded, and a restart clears the winner. When every reload succeeds, the success notice is the only one and `error` is null. Revert: one error is posted, the cache is unchanged and `error` stays null. Thrown error: the admin message is recorded and posted and the cache is unchanged. `isLoading` is false afterwards |
| `Voting.ReadsReportInOrder` | src/composables/useVoting.ts:125-165 | the three ledger loads in array order post one error per failed read, in that order, and leave the last failure's message as the error |
| `Voting.LoadAllIgnoresLoading` | src/composables/useVoting.ts:77-88 | no load reads `isLoading`: the loads change the store and post the same whether or not it is set |
| `Voting.FailedWriteReloadsNothing` | src/composables/useVoting.ts:241-246 | for every admin operation, a reverted or rejected write leaves the cache unchanged and posts no success |
| `Voting.AccountsChanged` | src/composables/useVoting.ts:353-364 | an empty account list gives exactly the `disconnect` state. Otherwise the first account becomes current and, only while connected, the voter record is reloaded; nothing else in the cache changes |
| `Voting.CastVote` | src/composables/useVoting.ts:167-190 | as written: does nothing without an account; otherwise it always posts the "Lỗi bỏ phiếu" error, records it only when the send threw, and leaves the cache and `isLoading` clear; the connection and account are kept |
| `Voting.CastVoteReportsFailureOnSuccess` | src/composables/useVoting.ts:176-182 | a vote sent without error posts exactly what a vote that failed to send posts |
| `Voting.CastVoteCorrected` | src/composables/useVoting.ts:167-190 | an error is posted and recorded only when sending failed; a successful send posts nothing of its own; everything but `error` and `isLoading` is kept |
| `Voting.RevokeVote` | src/composables/useVoting.ts:192-215 | as written: a successful send still posts "Lỗi hủy phiếu"; a thrown send records "Không thể hủy bỏ phiếu." and posts "Revoke Failed"; the connection, account and cache are kept |
| `Voting.RevokeVoteReportsFailureOnSuccess` | src/composables/useVoting.ts:201-207 | a revocation sent without error still posts an error |
| `Voting.RevokeVoteCorrected` | src/composables/useVoting.ts:192-215 | an error only when sending the revocation failed; everything but `error` and `isLoading` is kept |
| `Voting.CorrectedBallotsReportOnlyFailures` | src/composables/useVoting.ts:167-215 | in both corrected ballots, an error is posted if and only if the send failed |
| `Notifications.Materialise` | src/composables/useNotifications.ts:21-26 | defaults are duration 5000 and not persistent, and a supplied field overrides its default |
| `Notifications.AddNotification` | src/composables/useNotifications.ts:19-38 | appends exactly one notification at the end, returns its id, and leaves earlier entries and the pending set unchanged. A removal is scheduled exactly when the notification is not persistent and has a non-zero duration |
| `Notifications.FindIndex` | src/composables/useNotifications.ts:42 | the first position carrying the id, or none when no entry carries it |
| `Notifications.RemoveNotification` | src/composables/useNotifications.ts:41-46 | removes the first entry with the id and keeps the rest in order; an unknown id changes nothing |
| `Notifications.RemoveTakesOneCopy` | src/composables/useNotifications.ts:41-46 | removing a present id lowers its count by one and shortens the log by one |
| `Notifications.RemoveIdempotent` | src/composables/useNotifications.ts:41-46 | removing twice equals removing once, whenever at most one entry carries the id |
| `Notifications.RemoveNotIdempotentOnSharedId` | src/composables/useNotifications.ts:16 | with two entries sharing a random id, a second removal removes the second entry too |
| `Notifications.RemoveUndoesAdd` | src/composables/useNotifications.ts:19-46 | adding under an unused id and then removing that id restores the centre |
| `Notifications.Expire` | src/composables/useNotifications.ts:31-35 | when the timer fires, the first entry with its id is spliced out of the log and the order of the rest is kept; if the user already dismissed it, nothing changes; the pending set is untouched |
| `Notifications.ClearNotifications` | src/composables/useNotifications.ts:49-51 | empties the log and leaves the pending set untouched; a centre with nothing pending is cleared back to its starting state |
| `Notifications.AddPendingTransaction` | src/composables/useNotifications.ts:54-56 | the hash becomes pending; no other hash and no notification changes |
| `Notifications.RemovePendingTransaction` | src/composables/useNotifications.ts:59-61 | the hash is no longer pending; no other hash and no notification changes |
| `Notifications.IsTransactionPending` | src/composables/useNotifications.ts:64-66 | nothing is pending in an empty registry; `PendingCountTracksSet` relates it to the count |
| `Notifications.GetPendingCount` | src/composables/useNotifications.ts:69 | the count is zero exactly when nothing is pending, and positive whenever some hash is pending |
| `Notifications.AddPendingIdempotent` | src/composables/useNotifications.ts:54-56 | adding a hash twice is adding it once |
| `Notifications.RemoveAbsentPendingIsNoOp` | src/composables/useNotifications.ts:59-61 | removing a hash that is not pending changes nothing |
| `Notifications.PendingCountTracksSet` | src/composables/useNotifications.ts:63-69 | the pending count changes by one exactly when the hash's membership changes |
| `Notifications.DraftOf` | src/composables/useNotifications.ts:72-103 | an absent or empty message falls back to the title; only error drafts are persistent, and none sets a duration |
| `JsText.OrElse` | src/composables/useNotifications.ts:76 | `message \|\| title`: an absent or empty message falls back |
| `Notifications.NotifySuccess` | src/composables/useNotifications.ts:72-78 | returns the caller's id. Appends one non-persistent success notification with that id and title, and the message or, when it is absent or empty, the title. Its removal is scheduled after 5000 ms |
| `Notifications.NotifyError` | src/composables/useNotifications.ts:80-87 | returns the caller's id. Appends one persistent error notification with that id and title, and the message or else the title. No removal is scheduled |
| `Notifications.NotifyInfo` | src/composables/useNotifications.ts:89-95 | returns the caller's id. Appends one non-persistent info notification with that id and title, and the message or else the title. Its removal is scheduled after 5000 ms |
| `Notifications.NotifyWarning` | src/composables/useNotifications.ts:97-103 | returns the caller's id. Appends one non-persistent warning notification with that id and title, and the message or else the title. Its removal is scheduled after 5000 ms |
| `Notifications.HashLabel` | src/composables/useNotifications.ts:111 | the first ten characters of the hash, or the whole hash if it is shorter |
| `Notifications.TransactionPending` | src/composables/useNotifications.ts:106-114 | the hash becomes pending, then one persistent info notification quoting the hash is appended under the returned id |
| `Notifications.TransactionSuccess` | src/composables/useNotifications.ts:116-123 | the hash is settled first, then a non-persistent success notification quoting the hash is appended under the returned id |
| `Notifications.TransactionError` | src/composables/useNotifications.ts:125-133 | the hash is settled first, then a persistent error is appended under the returned id, with the caller's message or a default quoting the hash |
| `Notifications.PendingThenSettled` | src/composables/useNotifications.ts:106-133 | announcing a fresh hash as pending and then settling it either way restores the pending set and adds two notifications |
| `ContractApi.InitializeContract` | src/api/contract.ts:14-18 | the handle is set to the configured contract address |
| `ContractApi.Guarded` | src/api/contract.ts:26 | without a contract the result is "Contract not initialized"; with one, the ledger's response |
| `ContractApi.GetAdmin` | src/api/contract.ts:25-29 | the guard, then the admin address unchanged |
| `ContractApi.GetContractInfo` | src/api/contract.ts:32-50 | succeeds exactly when initialised and all five reads succeed; each value goes to its own field; a failure carries one of the reads' errors |
| `ContractApi.GetVoterInfo` | src/api/contract.ts:52-60 | the guard, then `authorized` and `votesCast` copied |
| `ContractApi.ZipCandidates` | src/api/contract.ts:66-70 | one candidate per id in id order; element i is built from index i of each of the three arrays |
| `ContractApi.GetAllCandidates` | src/api/contract.ts:62-71 | the same length and id order as `ids`; with `names` and `votes` at least as long, element i is `(ids[i], names[i], votes[i])` |
| `ContractApi.GetWinner` | src/api/contract.ts:73-82 | the guard, then `winnerId`, `winnerName` and `winnerVotes` copied |
| `ContractApi.Send` | src/api/contract.ts:85-131 | every write fails with "Contract not initialized" before initialisation and passes the ledger's result through after it |
| `ContractApi.EveryCallNeedsInitialisation` | src/api/contract.ts:14-131 | before initialisation every read and write fails with the guard's message; after it, none fails on its own |
| `NetworkConfig.CheckNetwork` | src/config/contract.ts:20-26 | true exactly when a provider exists and reports chain "0xaa36a7". False with no provider and no request. A rejected query propagates |
| `NetworkConfig.SwitchToSepolia` | src/config/contract.ts:28-54 | with no provider: false and no request. A switch is always asked first. The add is asked exactly after a 4902 refusal. The result is true exactly when the switch succeeds, or the add succeeds after a 4902 |
| `MetaMask.ConnectToMetaMask` | src/api/metamask.ts:4-35 | with no provider: fails as not installed and asks nothing. The network is checked first, and a failed switch gives the Sepolia error. Accounts are requested exactly when the network is ready. The result is the first account, "No accounts found", or the wallet's refusal |
| `MetaMask.SwitchPrecedesAccountRequest` | src/api/metamask.ts:8-19 | on the wrong network, an account request is always preceded by the switch request |
| `MetaMask.IsMetaMaskAvailable` | src/api/metamask.ts:38-40 | true exactly when a provider is present |
| `MetaMask.GetCurrentAccount` | src/api/metamask.ts:43-49 | the first exposed account, or null when there is none or no provider; a rejected query propagates |

## Findings

| source | as written | input that shows it | evidently intended | confidence | as-written member | corrected member |
|---|---|---|---|---|---|---|
| src/composables/useVoting.ts:176-182 | after the vote is sent, `showError('Lỗi bỏ phiếu', …)` runs unconditionally, right after the vote-cast listener is registered | any connected account whose `vote` send resolves | post the failure notification only when sending the vote fails | medium, not executed | `Voting.CastVote` (`Voting.CastVoteReportsFailureOnSuccess`) | `Voting.CastVoteCorrected` (`Voting.CorrectedBallotsReportOnlyFailures`) |
| src/composables/useVoting.ts:201-207 | after the revocation is sent, `showError('Lỗi hủy phiếu', …)` runs unconditionally | any connected account whose `revokeVote` send resolves | post the failure notification only when sending the revocation fails | medium, not executed | `Voting.RevokeVote` (`Voting.RevokeVoteReportsFailureOnSuccess`) | `Voting.RevokeVoteCorrected` (`Voting.CorrectedBallotsReportOnlyFailures`) |

## Left out

- Real wallet and ledger I/O is not modelled. This covers `new Web3`, `.call()`, `.send()`, `waitForTransactionReceipt`, `eth_chainId` and `eth_accounts`. Their results are parameters.
- Listener registration and removal are not modelled. This covers `setupAccountListener`, `setupChainListener`, `removeListeners`, and the `removeListeners` call in `disconnect`. They are side effects on the provider. The `accountsChanged` callback itself is modelled as `Voting.AccountsChanged`.
- Concurrency is not modelled. This covers `Promise.all` in `connect` and `restartElection`, and the fire-and-forget reloads at useVoting.ts:178 and 360. Each load is one atomic step once its read settles. `Voting.EveryCompletionOrderAgrees` shows the cache is the same for every order in which they settle. `Voting.LoadsCommute` shows that the reverse order posts the same notifications as a multiset, in another order. Every order posts that same multiset, because each load's notice depends only on the account and on that load's own outcome; the sequence order is not modelled beyond the two orders. With several failing loads, `error` holds the last failure in array order, where the program keeps whichever settles last. Stale writes after an account switch are not modelled.
- The vote-cast and vote-revoked event handlers (useVoting.ts:176-180, 201-205) are not modelled. They depend on web3 event semantics. Only the account guard, the unconditional notification, the error path and the `isLoading` reset are modelled.
- `setTimeout` timing is not modelled. A scheduled removal is a `Timer` value, and `Expire` fires it at any later point.
- The random notification id (`Math.random`) is a parameter. Uniqueness is not assumed; `Notifications.RemoveIdempotent` states its premise explicitly.
- `formatTime` is left out. It relies on locale-dependent date formatting.
- Console logging is left out.
- `parseInt` of the ledger's decimal strings is not modelled. Ledger numbers arrive as naturals, so the NaN outcomes of malformed strings do not arise.
- `ContractApi.GetAllCandidates`: when `names` or `votes` is shorter than `ids`, JavaScript yields `undefined` and `NaN` for the missing entries. The model puts the empty name and zero votes there, and the contract states element values only when both arrays are long enough.
- `ContractApi.GetContractInfo`: of several failing reads, it reports the first in array order. `Promise.all` rejects with whichever read rejects first in time.
- `JsText.Slice`, `VotingStore.ShortAddress`, `Notifications.HashLabel`: indices count Unicode scalar values, where JavaScript's `slice` counts UTF-16 code units. The two differ only on characters outside the Basic Multilingual Plane. Accounts, transaction hashes and voter addresses are ASCII hexadecimal, where they agree. The voter address is quoted in the authorisation message (src/composables/useVoting.ts:270).
- `VotingStore.IsCurrentUserAdmin`: letter case is folded for ASCII letters only. JavaScript's `toLowerCase` also folds other scripts, but addresses are hexadecimal.
- `Notifications.AddNotification`: a draft field is either present or absent. A field explicitly set to `undefined`, which the spread would copy over the default, is not modelled.
- `Voting.Connect`: `initializeContract` is assumed to succeed. The load outcomes are what the `ContractApi` read functions return once the handle is set. `err.message` is taken to be a string.
- `NetworkConfig.SwitchToSepolia`: an error without a numeric `code` is modelled as a `None` code, which behaves like any code other than 4902.

=== FILE: contract_api.dfy ===
/** The ledger gateway of src/api/contract.ts: a module-level contract handle that
    every call requires, and the mapping of each read call's raw response into the
    records the store caches.

    The ledger calls themselves (`.call()`, `.send()`) are not modelled: each read
    or write receives the awaited response as an `Outcome`, and the model states
    what the gateway makes of it. Decimal strings from the ledger are taken as
    already-parsed naturals.
 */
module ContractApi {
  import opened Results
  import NetworkConfig

  /** The election's metadata as the store caches it. */
  datatype ContractInfo = ContractInfo(electionName: string, startTime: nat, endTime: nat,
                                       totalVotes: nat, maxVotesPerVoter: nat)

  /** The connected account's voter record. */
  datatype VoterInfo = VoterInfo(authorized: bool, votesCast: nat)

  datatype Candidate = Candidate(id: nat, name: string, voteCount: nat)

  datatype Winner = Winner(winnerId: nat, winnerName: string, winnerVotes: nat)

  /** The five metadata reads `getContractInfo` issues together. */
  datatype InfoResponses = InfoResponses(electionName: Outcome<string>, startTime: Outcome<nat>,
                                         endTime: Outcome<nat>, totalVotes: Outcome<nat>,
                                         maxVotesPerVoter: Outcome<nat>)

  /** The ledger's `voters(address)` struct. */
  datatype RawVoter = RawVoter(authorized: bool, votesCast: nat)

  /** The ledger's `getAllCandidates()` result: three parallel arrays. */
  datatype RawCandidates = RawCandidates(ids: seq<nat>, names: seq<string>, votes: seq<nat>)

  /** The ledger's `getWinner()` result. */
  datatype RawWinner = RawWinner(winnerId: nat, winnerName: string, winnerVotes: nat)

  /** A state-changing ledger call and its argument. */
  datatype WriteCall =
    | Vote(candidateId: nat)
    | RevokeVote(candidateId: nat)
    | AddCandidate(name: string)
    | Authorize(voterAddress: string)
    | End
    | Restart

  /** The module-level `contract` variable: unset until `initializeContract`. */
  datatype Handle = Uninitialised | Initialised(address: string)

  const NOT_INITIALIZED: string := "Contract not initialized"

  /** `initializeContract`: bind the handle to the configured contract address. */
  function InitializeContract(): (h: Handle)
    ensures h.Initialised? && h.address == NetworkConfig.CONTRACT_ADDRESS
  {
    Initialised(NetworkConfig.CONTRACT_ADDRESS)
  }

  /** The check that opens every call: without a contract the call throws before
      reaching the ledger; with one, the ledger's response stands. */
  function Guarded<T>(h: Handle, response: Outcome<T>): (r: Outcome<T>)
    ensures h.Uninitialised? ==> r == Err(NOT_INITIALIZED)
    ensures h.Initialised? ==> r == response
  {
    if h.Uninitialised? then Err(NOT_INITIALIZED) else response
  }

  /** `getAdmin`: the admin address, as the ledger returns it. */
  function GetAdmin(h: Handle, response: Outcome<string>): (r: Outcome<string>)
    ensures h.Uninitialised? ==> r == Err(NOT_INITIALIZED)
    ensures h.Initialised? ==> r == response
  {
    Guarded(h, response)
  }

  /** `m` is the error of one of the five metadata reads. */
  predicate FailedWith(rs: InfoResponses, m: string)
  {
    || (rs.electionName.Err? && rs.electionName.message == m)
    || (rs.startTime.Err? && rs.startTime.message == m)
    || (rs.endTime.Err? && rs.endTime.message == m)
    || (rs.totalVotes.Err? && rs.totalVotes.message == m)
    || (rs.maxVotesPerVoter.Err? && rs.maxVotesPerVoter.message == m)
  }

  /** `getContractInfo`: the five reads, each value in its own field; a failed read
      fails the whole call with its error (the first failure in array order, where
      the program reports whichever rejects first). */
  function GetContractInfo(h: Handle, rs: InfoResponses): (r: Outcome<ContractInfo>)
    ensures h.Uninitialised? ==> r == Err(NOT_INITIALIZED)
    ensures r.Ok? <==> h.Initialised? && rs.electionName.Ok? && rs.startTime.Ok? && rs.endTime.Ok?
                       && rs.totalVotes.Ok? && rs.maxVotesPerVoter.Ok?
    ensures r.Ok? ==> && r.value.electionName == rs.electionName.value
                      && r.value.startTime == rs.startTime.value
                      && r.value.endTime == rs.endTime.value
                      && r.value.totalVotes == rs.totalVotes.value
                      && r.value.maxVotesPerVoter == rs.maxVotesPerVoter.value
    ensures h.Initialised? && r.Err? ==> FailedWith(rs, r.message)
  {
    if h.Uninitialised? then Err(NOT_INITIALIZED)
    else if rs.electionName.Err? then Err(rs.electionName.message)
    else if rs.startTime.Err? then Err(rs.startTime.message)
    else if rs.endTime.Err? then Err(rs.endTime.message)
    else if rs.totalVotes.Err? then Err(rs.totalVotes.message)
    else if rs.maxVotesPerVoter.Err? then Err(rs.maxVotesPerVoter.message)
    else Ok(ContractInfo(rs.electionName.value, rs.startTime.value, rs.endTime.value,
                         rs.totalVotes.value, rs.maxVotesPerVoter.value))
  }

  /** `getVoterInfo`: the voter record of `address`, its two fields copied. */
  function GetVoterInfo(h: Handle, address: string, response: Outcome<RawVoter>): (r: Outcome<VoterInfo>)
    ensures h.Uninitialised? ==> r == Err(NOT_INITIALIZED)
    ensures r.Ok? <==> h.Initialised? && response.Ok?
    ensures r.Ok? ==> r.value.authorized == response.value.authorized
                      && r.value.votesCast == response.value.votesCast
    ensures h.Initialised? && response.Err? ==> r == Err(response.message)
  {
    match Guarded(h, response)
    case Err(m) => Err(m)
    case Ok(v) => Ok(VoterInfo(v.authorized, v.votesCast))
  }

  /** `names[i]` and `votes[i]` where the arrays reach index `i`. An index past the end
      reads `undefined` in JavaScript; the model puts the empty name and zero votes there. */
  function NameAt(names: seq<string>, i: nat): string
  {
    if i < |names| then names[i] else ""
  }

  function VotesAt(votes: seq<nat>, i: nat): nat
  {
    if i < |votes| then votes[i] else 0
  }

  /** `ids.map((id, index) => ...)`: one candidate per id, in the order of `ids`,
      assembled from the entries at the same index of the other two arrays. */
  function ZipCandidates(ids: seq<nat>, names: seq<string>, votes: seq<nat>): (cs: seq<Candidate>)
    ensures |cs| == |ids|
    ensures forall i :: 0 <= i < |ids| ==>
              cs[i] == Candidate(ids[i], NameAt(names, i), VotesAt(votes, i))
  {
    if ids == [] then []
    else
      var rest := ZipCandidates(ids[1..], if names == [] then [] else names[1..],
                                if votes == [] then [] else votes[1..]);
      [Candidate(ids[0], NameAt(names, 0), VotesAt(votes, 0))] + rest
  }

  /** `getAllCandidates`: the ledger's three parallel arrays zipped into a candidate list. */
  function GetAllCandidates(h: Handle, response: Outcome<RawCandidates>): (r: Outcome<seq<Candidate>>)
    ensures h.Uninitialised? ==> r == Err(NOT_INITIALIZED)
    ensures r.Ok? <==> h.Initialised? && response.Ok?
    ensures r.Ok? ==> |r.value| == |response.value.ids|
    ensures r.Ok? ==> forall i :: 0 <= i < |r.value| ==> r.value[i].id == response.value.ids[i]
    ensures r.Ok? && |response.value.names| >= |response.value.ids| && |response.value.votes| >= |response.value.ids| ==>
              forall i :: 0 <= i < |r.value| ==>
                r.value[i] == Candidate(response.value.ids[i], response.value.names[i], response.value.votes[i])
    ensures h.Initialised? && response.Err? ==> r == Err(response.message)
  {
    match Guarded(h, response)
    case Err(m) => Err(m)
    case Ok(raw) => Ok(ZipCandidates(raw.ids, raw.names, raw.votes))
  }

  /** `getWinner`: the ledger's winner triple, each part in its own field. */
  function GetWinner(h: Handle, response: Outcome<RawWinner>): (r: Outcome<Winner>)
    ensures h.Uninitialised? ==> r == Err(NOT_INITIALIZED)
    ensures r.Ok? <==> h.Initialised? && response.Ok?
    ensures r.Ok? ==> && r.value.winnerId == response.value.winnerId
                      && r.value.winnerName == response.value.winnerName
                      && r.value.winnerVotes == response.value.winnerVotes
    ensures h.Initialised? && response.Err? ==> r == Err(response.message)
  {
    match Guarded(h, response)
    case Err(m) => Err(m)
    case Ok(w) => Ok(Winner(w.winnerId, w.winnerName, w.winnerVotes))
  }

  /** The write functions (`vote`, `revokeVote`, `addCandidate`, `authorizeVoter`,
      `endElection`, `restartElection`): send `call` from `from`, passing the ledger's
      transaction handle through once the contract is set. */
  function Send<T>(h: Handle, call: WriteCall, from: string, response: Outcome<T>): (r: Outcome<T>)
    ensures h.Uninitialised? ==> r == Err(NOT_INITIALIZED)
    ensures h.Initialised? ==> r == response
  {
    Guarded(h, response)
  }

  /** Before `initializeContract`, every read and write fails with "Contract not
      initialized", whatever the ledger would have answered; after it, none does so
      of its own accord. */
  lemma EveryCallNeedsInitialisation<T>(admin: Outcome<string>, rs: InfoResponses, address: string,
                                        voter: Outcome<RawVoter>, cands: Outcome<RawCandidates>,
                                        winner: Outcome<RawWinner>, call: WriteCall, from: string,
                                        sent: Outcome<T>)
    ensures var h := Uninitialised;
            && GetAdmin(h, admin) == Err(NOT_INITIALIZED)
            && GetContractInfo(h, rs) == Err(NOT_INITIALIZED)
            && GetVoterInfo(h, address, voter) == Err(NOT_INITIALIZED)
            && GetAllCandidates(h, cands) == Err(NOT_INITIALIZED)
            && GetWinner(h, winner) == Err(NOT_INITIALIZED)
            && Send(h, call, from, sent) == Err(NOT_INITIALIZED)
    ensures var h := InitializeContract();
            && GetAdmin(h, admin) == admin
            && Send(h, call, from, sent) == sent
            && (voter.Ok? ==> GetVoterInfo(h, address, voter).Ok?)
            && (cands.Ok? ==> GetAllCandidates(h, cands).Ok?)
            && (winner.Ok? ==> GetWinner(h, winner).Ok?)
  {
  }
}

=== FILE: jstext.dfy ===
/** The few JavaScript string operations the program relies on: the index
    arithmetic of `String.prototype.slice` (negative and out-of-range indices),
    `toLowerCase` on ASCII letters, and the `||` fallback for optional messages.
    A Dafny `string` counts Unicode scalar values where JavaScript counts UTF-16
    code units; the two agree on the ASCII text these operations are applied to.
 */
module JsText {
  import opened Results

  /** Resolves a `slice` argument against a string of length `len`:
      a negative index counts from the end, and the result is clamped to [0, len]. */
  function RelativeIndex(k: int, len: nat): (r: nat)
    ensures r <= len
    ensures 0 <= k <= len ==> r == k
    ensures k > len ==> r == len
    ensures k < 0 && len + k >= 0 ==> r == len + k
    ensures len + k < 0 ==> r == 0
  {
    if k < 0 then (if len + k < 0 then 0 else len + k)
    else if k < len then k
    else len
  }

  /** `s.slice(start, end)`: the characters from the resolved start up to the
      resolved end, or the empty string when the end does not lie after the start. */
  function Slice(s: string, start: int, end: int): (r: string)
    ensures |r| <= |s|
    ensures RelativeIndex(start, |s|) < RelativeIndex(end, |s|) ==>
              |r| == RelativeIndex(end, |s|) - RelativeIndex(start, |s|)
    ensures RelativeIndex(end, |s|) <= RelativeIndex(start, |s|) ==> r == ""
    ensures forall i :: 0 <= i < |r| ==> r[i] == s[RelativeIndex(start, |s|) + i]
  {
    var from := RelativeIndex(start, |s|);
    var to := RelativeIndex(end, |s|);
    if from < to then s[from..to] else ""
  }

  /** `s.slice(start)`: the end defaults to the length of the string. */
  function SliceFrom(s: string, start: int): (r: string)
    ensures |r| == |s| - RelativeIndex(start, |s|)
    ensures forall i :: 0 <= i < |r| ==> r[i] == s[RelativeIndex(start, |s|) + i]
  {
    Slice(s, start, |s|)
  }

  /** `s.slice(0, n)` for n >= 0 is the first n characters, or all of a shorter string. */
  lemma SlicePrefix(s: string, n: nat)
    ensures Slice(s, 0, n) == s[..if n < |s| then n else |s|]
  {
  }

  /** `s.slice(-n)` for n > 0 is the last n characters, or all of a shorter string. */
  lemma SliceSuffix(s: string, n: nat)
    requires n > 0
    ensures SliceFrom(s, -(n as int)) == s[if n < |s| then |s| - n else 0..]
  {
  }

  /** `toLowerCase` on one character, for the ASCII letters. */
  function LowerChar(c: char): (r: char)
    ensures 'A' <= c <= 'Z' ==> r as int == c as int + 32
    ensures !('A' <= c <= 'Z') ==> r == c
    ensures !('A' <= r <= 'Z')
  {
    if 'A' <= c <= 'Z' then (c as int + 32) as char else c
  }

  /** `s.toLowerCase()`: the same length, every character lowered. */
  function Lower(s: string): (r: string)
    ensures |r| == |s|
    ensures forall i :: 0 <= i < |s| ==> r[i] == LowerChar(s[i])
  {
    if s == [] then [] else [LowerChar(s[0])] + Lower(s[1..])
  }

  /** `message || fallback` for an optional string: an absent or empty message
      falls back, since both are falsy in JavaScript. */
  function OrElse(message: Option<string>, fallback: string): (r: string)
    ensures message.Some? && message.value != "" ==> r == message.value
    ensures message.None? || message.value == "" ==> r == fallback
  {
    if message.Some? && message.value != "" then message.value else fallback
  }
}

=== FILE: metamask.dfy ===
/** The wallet connection of src/api/metamask.ts: the decision tree of
    `connectToMetaMask`, and the two queries `isMetaMaskAvailable` and
    `getCurrentAccount`. Account access is requested with `eth_requestAccounts`
    (EIP-1102), only once the wallet is on Sepolia.
 */
module MetaMask {
  import opened Results
  import opened NetworkConfig

  const NOT_INSTALLED: string := "MetaMask is not installed. Please install MetaMask to use this app."
  const WRONG_NETWORK: string := "Please switch to Sepolia testnet to use this app."
  const NO_ACCOUNTS: string := "No accounts found"

  /** The wallet is on Sepolia, already or after a successful switch, so account
      access may be requested. */
  predicate NetworkReady(p: Provider)
  {
    OnSepolia(p) || (p.chainId.Ok? && SwitchSucceeds(p))
  }

  /** `connectToMetaMask`: with a provider, check the network, switch if needed, then
      request accounts and return the first one; every failure becomes the error the
      caller sees. The checks run in that order, and a failed one stops the rest. */
  function ConnectToMetaMask(w: Option<Provider>): (r: Traced<Outcome<string>>)
    // no provider: fail at once, asking nothing
    ensures w.None? ==> r.result == Err(NOT_INSTALLED) && r.issued == []
    // the network is always checked first
    ensures w.Some? ==> |r.issued| >= 1 && r.issued[0] == EthChainId
    // a rejected chain-id query is reported as is
    ensures w.Some? && w.value.chainId.Err? ==> r.result == Err(w.value.chainId.message)
    // wrong network and a failed switch: the switch error, with no account request
    ensures w.Some? && w.value.chainId.Ok? && !OnSepolia(w.value) && !SwitchSucceeds(w.value) ==>
              r.result == Err(WRONG_NETWORK)
    // accounts are requested exactly when the network is ready
    ensures EthRequestAccounts in r.issued <==> w.Some? && NetworkReady(w.value)
    // once requested: the first account, "No accounts found", or the wallet's refusal
    ensures w.Some? && NetworkReady(w.value) ==>
              match w.value.requestAccounts
              case Err(m) => r.result == Err(m)
              case Ok(accounts) =>
                r.result == (if |accounts| > 0 then Ok(accounts[0]) else Err(NO_ACCOUNTS))
  {
    match w
    case None => Traced(Err(NOT_INSTALLED), [])
    case Some(p) =>
      var net := CheckNetwork(w);
      match net.result
      case Err(m) => Traced(Err(m), net.issued)
      case Ok(onSepolia) =>
        var switched := if onSepolia then Traced(true, []) else SwitchToSepolia(w);
        var asked := net.issued + switched.issued;
        if !switched.result then Traced(Err(WRONG_NETWORK), asked)
        else
          var issued := asked + [EthRequestAccounts];
          match p.requestAccounts
          case Err(m) => Traced(Err(m), issued)
          case Ok(accounts) =>
            if |accounts| > 0 then Traced(Ok(accounts[0]), issued)
            else Traced(Err(NO_ACCOUNTS), issued)
  }

  /** `isMetaMaskAvailable`. */
  function IsMetaMaskAvailable(w: Option<Provider>): (r: bool)
    ensures r <==> w.Some?
  {
    w != None
  }

  /** `getCurrentAccount`: the first account the wallet exposes without prompting
      (`eth_accounts`), or `null` when there is none or no provider. */
  function GetCurrentAccount(w: Option<Provider>): (r: Traced<Outcome<Option<string>>>)
    ensures w.None? ==> r.result == Ok(None) && r.issued == []
    ensures w.Some? ==> r.issued == [EthAccounts]
    ensures r.result.Ok? && r.result.value.Some? <==>
              w.Some? && w.value.accounts.Ok? && |w.value.accounts.value| > 0
    ensures r.result.Ok? && r.result.value.Some? ==> r.result.value.value == w.value.accounts.value[0]
    ensures r.result.Err? <==> w.Some? && w.value.accounts.Err?
  {
    match w
    case None => Traced(Ok(None), [])
    case Some(p) =>
      match p.accounts
      case Err(m) => Traced(Err(m), [EthAccounts])
      case Ok(accounts) => Traced(Ok(if |accounts| > 0 then Some(accounts[0]) else None), [EthAccounts])
  }

  /** Account access is never requested on the wrong network unless the switch has
      been issued first, and then always after it. */
  lemma SwitchPrecedesAccountRequest(w: Option<Provider>)
    requires w.Some? && w.value.chainId.Ok? && !OnSepolia(w.value)
    ensures var r := ConnectToMetaMask(w);
            EthRequestAccounts in r.issued ==>
              exists i, j :: 0 <= i < j < |r.issued|
                && r.issued[i] == SwitchEthereumChain(SEPOLIA_CHAIN_ID) && r.issued[j] == EthRequestAccounts
  {
    var r := ConnectToMetaMask(w);
    if EthRequestAccounts in r.issued {
      var sw := SwitchToSepolia(w);
      assert r.issued == [EthChainId] + sw.issued + [EthRequestAccounts];
      assert r.issued[1] == SwitchEthereumChain(SEPOLIA_CHAIN_ID);
      assert r.issued[|r.issued| - 1] == EthRequestAccounts;
    }
  }
}

=== FILE: network_config.dfy ===
/** The network configuration of src/config/contract.ts and the two checks built on
    it: whether the wallet is on Sepolia (`checkNetwork`) and the switch-then-add
    fallback that moves it there (`switchToSepolia`).

    The injected wallet provider (`window.ethereum`) is modelled as the replies it
    would give to each JSON-RPC request; an absent provider is `None`. Each
    operation returns, beside its result, the requests it issued, so that what is
    never asked can be stated.
 */
module NetworkConfig {
  import opened Results

  /** The `wallet_addEthereumChain` parameter describing a chain (section
      "Specification" of EIP-3085). */
  datatype NetworkInfo = NetworkInfo(chainId: string, chainName: string,
                                     currencyName: string, currencySymbol: string, decimals: nat,
                                     rpcUrls: seq<string>, blockExplorerUrls: seq<string>)

  const CONTRACT_ADDRESS: string := "0x8f45329a73401C6e7f480F0543F4F0d2959641C5"

  /** Sepolia's chain id, 11155111, as the hexadecimal string the wallet reports. */
  const SEPOLIA_CHAIN_ID: string := "0xaa36a7"

  const SEPOLIA: NetworkInfo :=
    NetworkInfo(SEPOLIA_CHAIN_ID, "Sepolia Testnet", "Sepolia Ether", "SEP", 18,
                ["https://sepolia.infura.io/v3/"], ["https://sepolia.etherscan.io/"])

  /** The error code EIP-3326 reserves for "unrecognized chain id": the wallet does
      not know the chain and it must be added first. */
  const UNRECOGNIZED_CHAIN: int := 4902

  /** A JSON-RPC request the program sends to the provider. */
  datatype Rpc =
    | EthChainId
    | SwitchEthereumChain(chainId: string)
    | AddEthereumChain(network: NetworkInfo)
    | EthRequestAccounts
    | EthAccounts

  /** The reply to a request whose value is ignored: it resolved, or it was rejected
      with an error that may carry a numeric `code`. */
  datatype Reply = Accepted | Rejected(code: Option<int>, message: string)

  /** The replies an injected provider gives to each request the program makes. */
  datatype Provider = Provider(
    chainId: Outcome<string>,             // eth_chainId
    switchChain: Reply,                   // wallet_switchEthereumChain (EIP-3326)
    addChain: Reply,                      // wallet_addEthereumChain (EIP-3085)
    requestAccounts: Outcome<seq<string>>, // eth_requestAccounts (EIP-1102)
    accounts: Outcome<seq<string>>        // eth_accounts
  )

  /** A result together with the requests issued to compute it, in order. */
  datatype Traced<+T> = Traced(result: T, issued: seq<Rpc>)

  /** The provider is on Sepolia. */
  predicate OnSepolia(p: Provider)
  {
    p.chainId == Ok(SEPOLIA_CHAIN_ID)
  }

  /** The wallet ends on Sepolia after being asked to switch: the switch is accepted,
      or it is refused as an unknown chain and adding the chain is accepted. */
  predicate SwitchSucceeds(p: Provider)
  {
    || p.switchChain.Accepted?
    || (p.switchChain.code == Some(UNRECOGNIZED_CHAIN) && p.addChain.Accepted?)
  }

  /** `checkNetwork`: false without a provider; otherwise whether the reported chain
      id is Sepolia's. A rejected `eth_chainId` propagates. */
  function CheckNetwork(w: Option<Provider>): (r: Traced<Outcome<bool>>)
    ensures w.None? ==> r.result == Ok(false) && r.issued == []
    ensures w.Some? ==> r.issued == [EthChainId]
    ensures r.result == Ok(true) <==> w.Some? && OnSepolia(w.value)
    ensures r.result.Err? <==> w.Some? && w.value.chainId.Err?
  {
    match w
    case None => Traced(Ok(false), [])
    case Some(p) =>
      match p.chainId
      case Err(m) => Traced(Err(m), [EthChainId])
      case Ok(id) => Traced(Ok(id == SEPOLIA_CHAIN_ID), [EthChainId])
  }

  /** `switchToSepolia`: ask for Sepolia; if the wallet does not know the chain
      (code 4902) ask to add it; any other refusal is final. Never throws for an EIP-1193 error object. */
  function SwitchToSepolia(w: Option<Provider>): (r: Traced<bool>)
    ensures w.None? ==> !r.result && r.issued == []
    ensures r.result <==> w.Some? && SwitchSucceeds(w.value)
    ensures w.Some? ==> |r.issued| >= 1 && r.issued[0] == SwitchEthereumChain(SEPOLIA_CHAIN_ID)
    ensures AddEthereumChain(SEPOLIA) in r.issued <==>
              w.Some? && w.value.switchChain.Rejected? && w.value.switchChain.code == Some(UNRECOGNIZED_CHAIN)
    ensures forall q :: q in r.issued ==> q == SwitchEthereumChain(SEPOLIA_CHAIN_ID) || q == AddEthereumChain(SEPOLIA)
  {
    match w
    case None => Traced(false, [])
    case Some(p) =>
      var switch := [SwitchEthereumChain(SEPOLIA_CHAIN_ID)];
      match p.switchChain
      case Accepted => Traced(true, switch)
      case Rejected(code, _) =>
        if code == Some(UNRECOGNIZED_CHAIN) then
          Traced(p.addChain.Accepted?, switch + [AddEthereumChain(SEPOLIA)])
        else
          Traced(false, switch)
  }
}

=== FILE: notifications.dfy ===
/** The notification centre of src/composables/useNotifications.ts: an ordered
    log of user-visible notifications and, independently, the set of hashes of
    transactions still awaiting confirmation.

    The program keeps both in module-level reactive cells and mutates them; here
    they form one immutable `Centre` value and every operation returns the next
    one. The random id of a new notification and the timer of its automatic
    removal are made explicit: the caller supplies the id, and `AddNotification`
    returns the `Timer` it would have scheduled, which `Expire` later fires.
 */
module Notifications {
  import opened Results
  import JsText

  datatype Kind = Success | Error | Info | Warning

  /** The argument of `addNotification`: a notification without its id, in which
      `duration` and `persistent` may be left out. */
  datatype Draft = Draft(kind: Kind, title: string, message: string,
                         duration: Option<int>, persistent: Option<bool>)

  /** A notification in the log, with every default applied. */
  datatype Notification = Notification(id: string, kind: Kind, title: string, message: string,
                                       duration: int, persistent: bool)

  /** The centre's whole state: the notification log, oldest first, and the pending hashes. */
  datatype Centre = Centre(notifications: seq<Notification>, pending: set<string>)

  /** An automatic removal of notification `id` after `delay` milliseconds. */
  datatype Timer = Timer(id: string, delay: int)

  /** What `addNotification` leaves behind: the new centre, the id it returns,
      and the removal it schedules, if any. */
  datatype Added = Added(centre: Centre, id: string, timer: Option<Timer>)

  const DEFAULT_DURATION: int := 5000

  /** The centre as the program starts it: no notifications, nothing pending. */
  function EmptyCentre(): (c: Centre)
    ensures |c.notifications| == 0 && |c.pending| == 0
  {
    Centre([], {})
  }

  /* ---------------------------------------------------------------- *
   *  The notification log
   * ---------------------------------------------------------------- */

  /** The notification a draft becomes: the defaults `duration = 5000` and
      `persistent = false` come first, and a field the caller supplied overrides them. */
  function Materialise(id: string, d: Draft): (n: Notification)
    ensures n.id == id && n.kind == d.kind && n.title == d.title && n.message == d.message
    ensures d.duration.None? ==> n.duration == DEFAULT_DURATION
    ensures d.duration.Some? ==> n.duration == d.duration.value
    ensures n.persistent <==> d.persistent == Some(true)
  {
    Notification(id, d.kind, d.title, d.message,
                 d.duration.GetOr(DEFAULT_DURATION), d.persistent.GetOr(false))
  }

  /** `addNotification`: append one notification at the end of the log, return its
      id, and schedule its removal unless it is persistent or has a zero duration. */
  function AddNotification(c: Centre, id: string, d: Draft): (r: Added)
    ensures r.id == id
    ensures |r.centre.notifications| == |c.notifications| + 1
    ensures r.centre.notifications[..|c.notifications|] == c.notifications
    ensures r.centre.notifications[|c.notifications|] == Materialise(id, d)
    ensures r.centre.pending == c.pending
    ensures r.timer.Some? <==> d.persistent != Some(true) && d.duration != Some(0)
    ensures r.timer.Some? ==> r.timer.value == Timer(id, d.duration.GetOr(DEFAULT_DURATION))
  {
    var n := Materialise(id, d);
    var timer := if !n.persistent && n.duration != 0 then Some(Timer(id, n.duration)) else None;
    Added(c.(notifications := c.notifications + [n]), id, timer)
  }

  /** The number of notifications in `ns` carrying `id`. */
  function CountId(ns: seq<Notification>, id: string): (k: nat)
    ensures k <= |ns|
  {
    if ns == [] then 0
    else (if ns[0].id == id then 1 else 0) + CountId(ns[1..], id)
  }

  /** `findIndex`: the position of the first notification carrying `id`, if any. */
  function FindIndex(ns: seq<Notification>, id: string): (r: Option<nat>)
    ensures r.Some? ==> r.value < |ns| && ns[r.value].id == id
    ensures r.Some? ==> forall j :: 0 <= j < r.value ==> ns[j].id != id
    ensures r.None? ==> forall j :: 0 <= j < |ns| ==> ns[j].id != id
  {
    if ns == [] then None
    else if ns[0].id == id then Some(0)
    else match FindIndex(ns[1..], id)
      case None => None
      case Some(i) => Some(i + 1)
  }

  /** `removeNotification`: splice out the first notification carrying `id`,
      keeping the others in order; an unknown id leaves the centre as it is. */
  function RemoveNotification(c: Centre, id: string): (r: Centre)
    ensures r.pending == c.pending
    ensures (forall j :: 0 <= j < |c.notifications| ==> c.notifications[j].id != id) ==> r == c
    ensures forall i :: (0 <= i < |c.notifications| && c.notifications[i].id == id
                         && (forall j :: 0 <= j < i ==> c.notifications[j].id != id))
                        ==> r.notifications == c.notifications[..i] + c.notifications[i + 1..]
  {
    match FindIndex(c.notifications, id)
    case None => c
    case Some(i) => c.(notifications := c.notifications[..i] + c.notifications[i + 1..])
  }

  /** The scheduled removal firing: it removes the notification if it is still there. */
  function Expire(c: Centre, t: Timer): (r: Centre)
    ensures r.pending == c.pending
    ensures CountId(c.notifications, t.id) == 0 ==> r == c
    ensures CountId(c.notifications, t.id) > 0 ==>
              CountId(r.notifications, t.id) == CountId(c.notifications, t.id) - 1
              && |r.notifications| == |c.notifications| - 1
    ensures forall i :: (0 <= i < |c.notifications| && c.notifications[i].id == t.id
                         && (forall j :: 0 <= j < i ==> c.notifications[j].id != t.id))
                        ==> r.notifications == c.notifications[..i] + c.notifications[i + 1..]
  {
    RemoveTakesOneCopy(c, t.id);
    FindIndexIffCounted(c.notifications, t.id);
    RemoveNotification(c, t.id)
  }

  /** `clearNotifications`: empty the log; the pending hashes are a separate registry and stay. */
  function ClearNotifications(c: Centre): (r: Centre)
    ensures r.notifications == []
    ensures r.pending == c.pending
    ensures c.pending == {} ==> r == EmptyCentre()
  {
    c.(notifications := [])
  }

  /* ---------------------------------------------------------------- *
   *  The pending-transaction registry
   * ---------------------------------------------------------------- */

  /** `isTransactionPending`. */
  function IsTransactionPending(c: Centre, hash: string): (r: bool)
    ensures c.pending == {} ==> !r
  {
    hash in c.pending
  }

  /** `getPendingCount`: the number of distinct pending hashes. */
  function GetPendingCount(c: Centre): (r: nat)
    ensures r == 0 <==> c.pending == {}
    ensures forall h :: IsTransactionPending(c, h) ==> r > 0
  {
    |c.pending|
  }

  /** `addPendingTransaction`: `hash` becomes pending; nothing else changes. */
  function AddPendingTransaction(c: Centre, hash: string): (r: Centre)
    ensures IsTransactionPending(r, hash)
    ensures forall h :: h != hash ==> (IsTransactionPending(r, h) <==> IsTransactionPending(c, h))
    ensures r.notifications == c.notifications
  {
    c.(pending := c.pending + {hash})
  }

  /** `removePendingTransaction`: `hash` is no longer pending; nothing else changes. */
  function RemovePendingTransaction(c: Centre, hash: string): (r: Centre)
    ensures !IsTransactionPending(r, hash)
    ensures forall h :: h != hash ==> (IsTransactionPending(r, h) <==> IsTransactionPending(c, h))
    ensures r.notifications == c.notifications
  {
    c.(pending := c.pending - {hash})
  }

  /* ---------------------------------------------------------------- *
   *  Convenience constructors
   * ---------------------------------------------------------------- */

  /** The draft `success`, `error`, `info` and `warning` build: the message falls
      back to the title, and only errors are persistent. */
  function DraftOf(kind: Kind, title: string, message: Option<string>): (d: Draft)
    ensures d.kind == kind && d.title == title && d.duration.None?
    ensures message.Some? && message.value != "" ==> d.message == message.value
    ensures message.None? || message.value == "" ==> d.message == title
    ensures kind == Error ==> d.persistent == Some(true)
    ensures kind != Error ==> d.persistent.None?
  {
    Draft(kind, title, JsText.OrElse(message, title), None,
          if kind == Error then Some(true) else None)
  }

  function SuccessDraft(title: string, message: Option<string>): Draft
  {
    DraftOf(Success, title, message)
  }

  function ErrorDraft(title: string, message: Option<string>): Draft
  {
    DraftOf(Error, title, message)
  }

  function InfoDraft(title: string, message: Option<string>): Draft
  {
    DraftOf(Info, title, message)
  }

  function WarningDraft(title: string, message: Option<string>): Draft
  {
    DraftOf(Warning, title, message)
  }

  /** `success`: a non-persistent notification removed after the default 5 seconds. */
  function NotifySuccess(c: Centre, id: string, title: string, message: Option<string>): (r: Added)
    ensures |r.centre.notifications| == |c.notifications| + 1
    ensures r.centre.notifications == c.notifications + [r.centre.notifications[|c.notifications|]]
    ensures var n := r.centre.notifications[|c.notifications|];
            n.id == id && n.title == title && n.message == JsText.OrElse(message, title)
            && n.kind == Success && !n.persistent && n.duration == DEFAULT_DURATION
    ensures r.timer == Some(Timer(id, DEFAULT_DURATION))
    ensures r.id == id
  {
    AddNotification(c, id, SuccessDraft(title, message))
  }

  /** `error`: a persistent notification, never removed automatically. */
  function NotifyError(c: Centre, id: string, title: string, message: Option<string>): (r: Added)
    ensures |r.centre.notifications| == |c.notifications| + 1
    ensures r.centre.notifications == c.notifications + [r.centre.notifications[|c.notifications|]]
    ensures var n := r.centre.notifications[|c.notifications|];
            n.id == id && n.title == title && n.message == JsText.OrElse(message, title)
            && n.kind == Error && n.persistent
    ensures r.timer.None?
    ensures r.id == id
  {
    AddNotification(c, id, ErrorDraft(title, message))
  }

  /** `info`: a non-persistent notification removed after the default 5 seconds. */
  function NotifyInfo(c: Centre, id: string, title: string, message: Option<string>): (r: Added)
    ensures |r.centre.notifications| == |c.notifications| + 1
    ensures r.centre.notifications == c.notifications + [r.centre.notifications[|c.notifications|]]
    ensures var n := r.centre.notifications[|c.notifications|];
            n.id == id && n.title == title && n.message == JsText.OrElse(message, title)
            && n.kind == Info && !n.persistent && n.duration == DEFAULT_DURATION
    ensures r.timer == Some(Timer(id, DEFAULT_DURATION))
    ensures r.id == id
  {
    AddNotification(c, id, InfoDraft(title, message))
  }

  /** `warning`: a non-persistent notification removed after the default 5 seconds. */
  function NotifyWarning(c: Centre, id: string, title: string, message: Option<string>): (r: Added)
    ensures |r.centre.notifications| == |c.notifications| + 1
    ensures r.centre.notifications == c.notifications + [r.centre.notifications[|c.notifications|]]
    ensures var n := r.centre.notifications[|c.notifications|];
            n.id == id && n.title == title && n.message == JsText.OrElse(message, title)
            && n.kind == Warning && !n.persistent && n.duration == DEFAULT_DURATION
    ensures r.timer == Some(Timer(id, DEFAULT_DURATION))
    ensures r.id == id
  {
    AddNotification(c, id, WarningDraft(title, message))
  }

  /* ---------------------------------------------------------------- *
   *  Transaction helpers
   * ---------------------------------------------------------------- */

  /** `txHash.slice(0, 10)`, the abbreviation the transaction messages quote. */
  function HashLabel(hash: string): (r: string)
    ensures |hash| >= 10 ==> r == hash[..10]
    ensures |hash| < 10 ==> r == hash
  {
    JsText.SlicePrefix(hash, 10);
    JsText.Slice(hash, 0, 10)
  }

  /** `transactionPending`: register the hash, then log a persistent info notification. */
  function TransactionPending(c: Centre, id: string, hash: string, title: string): (r: Added)
    ensures IsTransactionPending(r.centre, hash)
    ensures r.centre.pending == AddPendingTransaction(c, hash).pending
    ensures |r.centre.notifications| == |c.notifications| + 1
    ensures r.centre.notifications == c.notifications + [r.centre.notifications[|c.notifications|]]
    ensures var n := r.centre.notifications[|c.notifications|];
            n.id == id && n.kind == Info && n.persistent && n.title == title
            && n.message == "Giao dịch " + HashLabel(hash) + "... đang chờ xử lý"
    ensures r.timer.None?
    ensures r.id == id
  {
    AddNotification(AddPendingTransaction(c, hash), id,
      Draft(Info, title, "Giao dịch " + HashLabel(hash) + "... đang chờ xử lý", None, Some(true)))
  }

  /** `transactionSuccess`: settle the hash, then log a non-persistent success notification. */
  function TransactionSuccess(c: Centre, id: string, hash: string, title: string): (r: Added)
    ensures !IsTransactionPending(r.centre, hash)
    ensures r.centre.pending == RemovePendingTransaction(c, hash).pending
    ensures |r.centre.notifications| == |c.notifications| + 1
    ensures r.centre.notifications == c.notifications + [r.centre.notifications[|c.notifications|]]
    ensures var n := r.centre.notifications[|c.notifications|];
            n.id == id && n.kind == Success && !n.persistent && n.title == title
            && n.message == "Giao dịch " + HashLabel(hash) + "... đã hoàn thành thành công"
    ensures r.timer == Some(Timer(id, DEFAULT_DURATION))
    ensures r.id == id
  {
    AddNotification(RemovePendingTransaction(c, hash), id,
      Draft(Success, title, "Giao dịch " + HashLabel(hash) + "... đã hoàn thành thành công", None, None))
  }

  /** `transactionError`: settle the hash, then log a persistent error notification whose
      message is the caller's, or a default naming the hash when none is given. */
  function TransactionError(c: Centre, id: string, hash: string, title: string,
                            errorMessage: Option<string>): (r: Added)
    ensures !IsTransactionPending(r.centre, hash)
    ensures r.centre.pending == RemovePendingTransaction(c, hash).pending
    ensures |r.centre.notifications| == |c.notifications| + 1
    ensures r.centre.notifications == c.notifications + [r.centre.notifications[|c.notifications|]]
    ensures var n := r.centre.notifications[|c.notifications|];
            n.id == id && n.kind == Error && n.persistent && n.title == title
            && (errorMessage.Some? && errorMessage.value != "" ==> n.message == errorMessage.value)
            && (errorMessage.None? || errorMessage.value == "" ==>
                  n.message == "Giao dịch " + HashLabel(hash) + "... thất bại")
    ensures r.timer.None?
    ensures r.id == id
  {
    AddNotification(RemovePendingTransaction(c, hash), id,
      Draft(Error, title, JsText.OrElse(errorMessage, "Giao dịch " + HashLabel(hash) + "... thất bại"),
            None, Some(true)))
  }

  /* ---------------------------------------------------------------- *
   *  Properties
   * ---------------------------------------------------------------- */

  /** Counting distributes over concatenation. */
  lemma {:induction false} CountIdAppend(a: seq<Notification>, b: seq<Notification>, id: string)
    ensures CountId(a + b, id) == CountId(a, id) + CountId(b, id)
  {
    if a == [] {
      assert a + b == b;
    } else {
      assert (a + b)[1..] == a[1..] + b;
      CountIdAppend(a[1..], b, id);
    }
  }

  /** An id is found exactly when some notification carries it. */
  lemma {:induction false} FindIndexIffCounted(ns: seq<Notification>, id: string)
    ensures FindIndex(ns, id).Some? <==> CountId(ns, id) > 0
  {
    if ns != [] {
      FindIndexIffCounted(ns[1..], id);
    }
  }

  /** Removing an id that is present takes away exactly one notification carrying
      it; the log shrinks by one. */
  lemma RemoveTakesOneCopy(c: Centre, id: string)
    ensures var r := RemoveNotification(c, id);
            CountId(c.notifications, id) > 0 ==>
              CountId(r.notifications, id) == CountId(c.notifications, id) - 1
              && |r.notifications| == |c.notifications| - 1
  {
    FindIndexIffCounted(c.notifications, id);
    var ns := c.notifications;
    match FindIndex(ns, id)
    case None =>
    case Some(i) =>
      assert ns == ns[..i] + [ns[i]] + ns[i + 1..];
      CountIdAppend(ns[..i] + [ns[i]], ns[i + 1..], id);
      CountIdAppend(ns[..i], [ns[i]], id);
      CountIdAppend(ns[..i], ns[i + 1..], id);
  }

  /** `removeNotification` is idempotent for an id that at most one notification carries. */
  lemma RemoveIdempotent(c: Centre, id: string)
    requires CountId(c.notifications, id) <= 1
    ensures RemoveNotification(RemoveNotification(c, id), id) == RemoveNotification(c, id)
  {
    var r := RemoveNotification(c, id);
    RemoveTakesOneCopy(c, id);
    FindIndexIffCounted(c.notifications, id);
    FindIndexIffCounted(r.notifications, id);
  }

  /** Ids are random and not checked for uniqueness: when two notifications share
      an id, a second removal takes away the second one, so removal is then not idempotent. */
  lemma RemoveNotIdempotentOnSharedId()
    ensures var n := Notification("a", Info, "t", "m", 5000, false);
            var c := Centre([n, n], {});
            RemoveNotification(RemoveNotification(c, "a"), "a") != RemoveNotification(c, "a")
  {
    var n := Notification("a", Info, "t", "m", 5000, false);
    var c := Centre([n, n], {});
    assert RemoveNotification(c, "a").notifications == [n];
    assert RemoveNotification(RemoveNotification(c, "a"), "a").notifications == [];
  }

  /** Adding a notification under an id not yet in the log and then removing that id
      gives back the original centre. */
  lemma RemoveUndoesAdd(c: Centre, id: string, d: Draft)
    requires forall j :: 0 <= j < |c.notifications| ==> c.notifications[j].id != id
    ensures RemoveNotification(AddNotification(c, id, d).centre, id) == c
  {
    var ns := AddNotification(c, id, d).centre.notifications;
    assert FindIndex(ns, id) == Some(|c.notifications|);
    assert ns[..|c.notifications|] == c.notifications;
  }

  /** Adding the same hash twice is adding it once. */
  lemma AddPendingIdempotent(c: Centre, hash: string)
    ensures AddPendingTransaction(AddPendingTransaction(c, hash), hash) == AddPendingTransaction(c, hash)
  {
  }

  /** Removing a hash that is not pending changes nothing. */
  lemma RemoveAbsentPendingIsNoOp(c: Centre, hash: string)
    requires !IsTransactionPending(c, hash)
    ensures RemovePendingTransaction(c, hash) == c
  {
  }

  /** The pending count moves by one exactly when the set changes. */
  lemma PendingCountTracksSet(c: Centre, hash: string)
    ensures GetPendingCount(AddPendingTransaction(c, hash))
            == GetPendingCount(c) + (if IsTransactionPending(c, hash) then 0 else 1)
    ensures GetPendingCount(RemovePendingTransaction(c, hash))
            == GetPendingCount(c) - (if IsTransactionPending(c, hash) then 1 else 0)
  {
  }

  /** A transaction announced as pending and then settled, either way, leaves the
      pending set as it was before, provided the hash was not already pending. */
  lemma PendingThenSettled(c: Centre, id1: string, id2: string, hash: string, title: string,
                           failed: bool, errorMessage: Option<string>)
    requires !IsTransactionPending(c, hash)
    ensures var p := TransactionPending(c, id1, hash, title).centre;
            var s := if failed then TransactionError(p, id2, hash, title, errorMessage).centre
                     else TransactionSuccess(p, id2, hash, title).centre;
            s.pending == c.pending && |s.notifications| == |c.notifications| + 2
  {
  }
}

=== FILE: results.dfy ===
/** Failure-carrying values shared by every module of the model.

    An awaited call of the program either resolves or throws; the
    model receives that result as an `Outcome`, whose error side carries the
    thrown error's `message`.
 */
module Results {

  /** A value that may be absent (`null` / `undefined` in the program). */
  datatype Option<+T> = None | Some(value: T) {

    /** The wrapped value, or `default` when absent. */
    function GetOr(default: T): (r: T)
      ensures Some? ==> r == value
      ensures None? ==> r == default
    {
      match this
      case Some(v) => v
      case None => default
    }
  }

  /** The result of an awaited call: it resolved with a value or threw an error. */
  datatype Outcome<+T> = Ok(value: T) | Err(message: string)
}

=== FILE: voting.dfy ===
/** The operations of src/composables/useVoting.ts as transitions of the `Store`.

    Every awaited gateway call becomes a parameter holding its outcome, and every
    transition returns the next store together with the notifications it posts
    (as drafts for the notification centre, in posting order). The loads that the
    program starts together with `Promise.all` run here one after the other in
    array order; `EveryCompletionOrderAgrees` shows that the cached election is the
    same for every order in which they settle, and `LoadsCommute` that the reverse
    order posts the same notifications as a multiset, in another order.
 */
module Voting {
  import opened Results
  import JsText
  import opened ContractApi
  import opened VotingStore
  import N = Notifications
  import MetaMask

  /** A transition's result: the next store and the notifications it posted. */
  datatype Step = Step(store: Store, emitted: seq<N.Draft>)

  /** The outcomes of the three ledger reads a transition may reload. */
  datatype Loads = Loads(contractInfo: Outcome<ContractInfo>, voterInfo: Outcome<VoterInfo>,
                         candidates: Outcome<seq<Candidate>>)

  const CONTRACT_LOAD_FAILED: string := "Failed to load contract information"
  const VOTER_LOAD_FAILED: string := "Failed to load voter information"
  const CANDIDATES_LOAD_FAILED: string := "Failed to load candidates"
  const WINNER_FAILED: string := "Failed to get winner. The election might still be ongoing."
  const REVERTED: string := "Transaction was reverted. Please try again."

  /** The store records `message` as the error and posts it under `title`. */
  function Fail(s: Store, title: string, message: string): (r: Step)
    ensures r.store == s.(error := Some(message))
    ensures r.emitted == [N.ErrorDraft(title, Some(message))]
  {
    Step(s.(error := Some(message)), [N.ErrorDraft(title, Some(message))])
  }

  /** Exactly one notification was posted, an error with this title and message. */
  predicate PostedOneError(r: Step, title: string, message: string)
  {
    |r.emitted| == 1 && r.emitted[0].kind == N.Error && r.emitted[0].title == title
    && r.emitted[0].message == message && r.emitted[0].persistent == Some(true)
  }

  /** Some notification posted by `r` is a success notification. */
  predicate PostedSuccess(r: Step)
  {
    exists i :: 0 <= i < |r.emitted| && r.emitted[i].kind == N.Success
  }

  /* ---------------------------------------------------------------- *
   *  Loaders
   * ---------------------------------------------------------------- */

  /** A cached entity a load fills in. */
  datatype Entity = ElectionInfo | VoterRecord | CandidateList

  const ALL_ENTITIES: set<Entity> := {ElectionInfo, VoterRecord, CandidateList}

  /** The title under which a failed load of `e` is posted. */
  function LoadErrorTitle(e: Entity): string
  {
    match e
    case ElectionInfo => "Contract Error"
    case VoterRecord => "Voter Error"
    case CandidateList => "Candidates Error"
  }

  /** The error a failed load of `e` records and posts. */
  function LoadErrorMessage(e: Entity): string
  {
    match e
    case ElectionInfo => CONTRACT_LOAD_FAILED
    case VoterRecord => VOTER_LOAD_FAILED
    case CandidateList => CANDIDATES_LOAD_FAILED
  }

  /** Of the entities `es`, those whose read failed, in the order the program starts
      the loads (metadata, voter record, candidates). Without an account the voter
      load does nothing, so it cannot fail. */
  function FailedLoads(s: Store, es: set<Entity>, loads: Loads): seq<Entity>
  {
    (if ElectionInfo in es && loads.contractInfo.Err? then [ElectionInfo] else [])
    + (if VoterRecord in es && s.currentAccount != "" && loads.voterInfo.Err? then [VoterRecord] else [])
    + (if CandidateList in es && loads.candidates.Err? then [CandidateList] else [])
  }

  /** Nothing fails exactly when every read among `es` that runs succeeds. */
  lemma NoFailedLoads(s: Store, es: set<Entity>, loads: Loads)
    ensures FailedLoads(s, es, loads) == [] <==>
              (ElectionInfo in es ==> loads.contractInfo.Ok?)
              && (VoterRecord in es && s.currentAccount != "" ==> loads.voterInfo.Ok?)
              && (CandidateList in es ==> loads.candidates.Ok?)
  {
  }

  /** One error notification per failed load, in the same order. */
  function FailureDrafts(fs: seq<Entity>): (ds: seq<N.Draft>)
    ensures |ds| == |fs|
    ensures forall i :: 0 <= i < |ds| ==> ds[i].kind == N.Error
  {
    if fs == [] then [] else [FailureDraft(fs[0])] + FailureDrafts(fs[1..])
  }

  /** The error notification a failed load of `e` posts. */
  function FailureDraft(e: Entity): (d: N.Draft)
    ensures d.kind == N.Error
  {
    N.ErrorDraft(LoadErrorTitle(e), Some(LoadErrorMessage(e)))
  }

  /** The error left after loads failed in order `fs`: the last failure's message,
      or `before` when none failed. */
  function ErrorAfter(before: Option<string>, fs: seq<Entity>): (e: Option<string>)
    ensures fs == [] ==> e == before
    ensures fs != [] ==> e.Some? && e.value == LoadErrorMessage(fs[|fs| - 1])
  {
    if fs == [] then before else Some(LoadErrorMessage(fs[|fs| - 1]))
  }

  /** Failures in two runs of loads are posted one run after the other. */
  lemma {:induction false} FailureDraftsAppend(a: seq<Entity>, b: seq<Entity>)
    ensures FailureDrafts(a + b) == FailureDrafts(a) + FailureDrafts(b)
  {
    if a != [] {
      FailureDraftsAppend(a[1..], b);
      assert (a + b)[1..] == a[1..] + b;
      assert FailureDrafts(a + b) == [FailureDraft(a[0])] + FailureDrafts(a[1..] + b);
    } else {
      assert a + b == b;
    }
  }

  /** The error after two runs of loads is the second run's, applied to the first's. */
  lemma ErrorAfterAppend(before: Option<string>, a: seq<Entity>, b: seq<Entity>)
    ensures ErrorAfter(before, a + b) == ErrorAfter(ErrorAfter(before, a), b)
  {
    if b != [] {
      assert (a + b)[|a + b| - 1] == b[|b| - 1];
    }
  }

  /** Which loads fail depends on the store only through its current account. */
  lemma FailedLoadsReadsAccount(s: Store, t: Store, es: set<Entity>, loads: Loads)
    requires s.currentAccount == t.currentAccount
    ensures FailedLoads(s, es, loads) == FailedLoads(t, es, loads)
  {
  }

  /** `loadContractInfo`: replace the election metadata, or keep it and report the failure. */
  function LoadContractInfo(s: Store, o: Outcome<ContractInfo>): (r: Step)
    ensures r.store == s.(contractInfo := r.store.contractInfo, error := r.store.error)
    ensures r.store.contractInfo == (if o.Ok? then o.value else s.contractInfo)
    ensures o.Ok? ==> r.store.error == s.error && r.emitted == []
    ensures o.Err? ==> r.store.error == Some(CONTRACT_LOAD_FAILED)
                       && PostedOneError(r, "Contract Error", CONTRACT_LOAD_FAILED)
  {
    match o
    case Ok(info) => Step(s.(contractInfo := info), [])
    case Err(_) => Fail(s, "Contract Error", CONTRACT_LOAD_FAILED)
  }

  /** `loadAdminInfo`: record the admin address and mark the read as succeeded; a failed
      read clears the admin flag and is neither recorded as an error nor posted. */
  function LoadAdminInfo(s: Store, o: Outcome<string>): (r: Step)
    ensures r.store == s.(isAdmin := r.store.isAdmin, adminAddress := r.store.adminAddress)
    ensures r.store.isAdmin <==> o.Ok?
    ensures r.store.adminAddress == (if o.Ok? then o.value else s.adminAddress)
    ensures r.emitted == []
  {
    match o
    case Ok(admin) => Step(s.(adminAddress := admin, isAdmin := true), [])
    case Err(_) => Step(s.(isAdmin := false), [])
  }

  /** `loadVoterInfo`: without an account, nothing happens; otherwise replace the voter
      record of the current account, or keep it and report the failure. */
  function LoadVoterInfo(s: Store, o: Outcome<VoterInfo>): (r: Step)
    ensures s.currentAccount == "" ==> r == Step(s, [])
    ensures r.store == s.(voterInfo := r.store.voterInfo, error := r.store.error)
    ensures r.store.voterInfo == (if s.currentAccount != "" && o.Ok? then o.value else s.voterInfo)
    ensures s.currentAccount != "" && o.Ok? ==> r.store.error == s.error && r.emitted == []
    ensures s.currentAccount != "" && o.Err? ==>
              r.store.error == Some(VOTER_LOAD_FAILED) && PostedOneError(r, "Voter Error", VOTER_LOAD_FAILED)
  {
    if s.currentAccount == "" then Step(s, [])
    else match o
      case Ok(voter) => Step(s.(voterInfo := voter), [])
      case Err(_) => Fail(s, "Voter Error", VOTER_LOAD_FAILED)
  }

  /** `loadCandidates`: replace the candidate list wholesale, or keep it and report the failure. */
  function LoadCandidates(s: Store, o: Outcome<seq<Candidate>>): (r: Step)
    ensures r.store == s.(candidates := r.store.candidates, error := r.store.error)
    ensures r.store.candidates == (if o.Ok? then o.value else s.candidates)
    ensures o.Ok? ==> r.store.error == s.error && r.emitted == []
    ensures o.Err? ==> r.store.error == Some(CANDIDATES_LOAD_FAILED)
                       && PostedOneError(r, "Candidates Error", CANDIDATES_LOAD_FAILED)
  {
    match o
    case Ok(cs) => Step(s.(candidates := cs), [])
    case Err(_) => Fail(s, "Candidates Error", CANDIDATES_LOAD_FAILED)
  }

  /** `getWinner`: record the winner and announce it, or keep the previous winner and
      report that the election may still be running. */
  function GetWinner(s: Store, o: Outcome<Winner>): (r: Step)
    ensures r.store == s.(winner := r.store.winner, error := r.store.error)
    ensures r.store.winner == (if o.Ok? then Some(o.value) else s.winner)
    ensures o.Ok? ==> r.store.error == s.error
                      && r.emitted == [N.SuccessDraft("Winner Retrieved", Some("Election winner information loaded"))]
    ensures o.Err? ==> r.store.error == Some(WINNER_FAILED) && PostedOneError(r, "Winner Error", WINNER_FAILED)
  {
    match o
    case Ok(w) => Step(s.(winner := Some(w)), [N.SuccessDraft("Winner Retrieved", Some("Election winner information loaded"))])
    case Err(_) => Fail(s, "Winner Error", WINNER_FAILED)
  }

  /** The four loads `connect` starts with `Promise.all`, in array order. */
  function LoadAll(s: Store, loads: Loads, admin: Outcome<string>): (r: Step)
    ensures r.store.isConnected == s.isConnected && r.store.currentAccount == s.currentAccount
    ensures r.store.winner == s.winner && r.store.isLoading == s.isLoading
    ensures r.store.contractInfo == (if loads.contractInfo.Ok? then loads.contractInfo.value else s.contractInfo)
    ensures r.store.voterInfo == (if s.currentAccount != "" && loads.voterInfo.Ok? then loads.voterInfo.value
                                  else s.voterInfo)
    ensures r.store.candidates == (if loads.candidates.Ok? then loads.candidates.value else s.candidates)
    ensures r.store.isAdmin <==> admin.Ok?
    ensures r.store.adminAddress == (if admin.Ok? then admin.value else s.adminAddress)
    ensures r.store.error == ErrorAfter(s.error, FailedLoads(s, ALL_ENTITIES, loads))
    ensures r.emitted == FailureDrafts(FailedLoads(s, ALL_ENTITIES, loads))
  {
    var c := LoadContractInfo(s, loads.contractInfo);
    var v := LoadVoterInfo(c.store, loads.voterInfo);
    var k := LoadCandidates(v.store, loads.candidates);
    var a := LoadAdminInfo(k.store, admin);
    ReadsReportInOrder(s, loads);
    Step(a.store, c.emitted + v.emitted + k.emitted + a.emitted)
  }

  /** Each ledger load on its own posts and records exactly its own failure. */
  lemma EachLoadReports(s: Store, loads: Loads)
    ensures var c := LoadContractInfo(s, loads.contractInfo);
            var fc := FailedLoads(s, {ElectionInfo}, loads);
            c.emitted == FailureDrafts(fc) && c.store.error == ErrorAfter(s.error, fc)
    ensures var v := LoadVoterInfo(s, loads.voterInfo);
            var fv := FailedLoads(s, {VoterRecord}, loads);
            v.emitted == FailureDrafts(fv) && v.store.error == ErrorAfter(s.error, fv)
    ensures var k := LoadCandidates(s, loads.candidates);
            var fk := FailedLoads(s, {CandidateList}, loads);
            k.emitted == FailureDrafts(fk) && k.store.error == ErrorAfter(s.error, fk)
  {
  }

  /** The failures among all three reads, split by read. */
  lemma FailedLoadsSplit(s: Store, loads: Loads)
    ensures FailedLoads(s, ALL_ENTITIES, loads)
            == FailedLoads(s, {ElectionInfo}, loads) + FailedLoads(s, {VoterRecord}, loads)
               + FailedLoads(s, {CandidateList}, loads)
  {
  }

  /** The three ledger loads, run in array order, post one error per failed read in
      that order and leave the last failure's message as the error. */
  lemma ReadsReportInOrder(s: Store, loads: Loads)
    ensures var c := LoadContractInfo(s, loads.contractInfo);
            var v := LoadVoterInfo(c.store, loads.voterInfo);
            var k := LoadCandidates(v.store, loads.candidates);
            && c.emitted + v.emitted + k.emitted == FailureDrafts(FailedLoads(s, ALL_ENTITIES, loads))
            && k.store.error == ErrorAfter(s.error, FailedLoads(s, ALL_ENTITIES, loads))
  {
    var c := LoadContractInfo(s, loads.contractInfo);
    var v := LoadVoterInfo(c.store, loads.voterInfo);
    var k := LoadCandidates(v.store, loads.candidates);
    var fc := FailedLoads(s, {ElectionInfo}, loads);
    var fv := FailedLoads(s, {VoterRecord}, loads);
    var fk := FailedLoads(s, {CandidateList}, loads);
    EachLoadReports(s, loads);
    EachLoadReports(c.store, loads);
    EachLoadReports(v.store, loads);
    FailedLoadsReadsAccount(c.store, s, {VoterRecord}, loads);
    FailedLoadsReadsAccount(v.store, s, {CandidateList}, loads);
    FailedLoadsSplit(s, loads);
    FailureDraftsAppend(fc, fv);
    FailureDraftsAppend(fc + fv, fk);
    ErrorAfterAppend(s.error, fc, fv);
    ErrorAfterAppend(s.error, fc + fv, fk);
  }

  /* ---------------------------------------------------------------- *
   *  Connection
   * ---------------------------------------------------------------- */

  /** `connect`: take the account the wallet returned, mark the store connected, load
      the election, and announce the connection; a wallet failure is recorded and
      posted and changes nothing else. The store is not loading afterwards. */
  function Connect(s: Store, wallet: Outcome<string>, loads: Loads, admin: Outcome<string>): (r: Step)
    ensures !r.store.isLoading
    ensures wallet.Err? ==> && r.store.isConnected == s.isConnected
                            && r.store.currentAccount == s.currentAccount
                            && CacheOf(r.store) == CacheOf(s)
                            && r.store.error == Some(wallet.message)
                            && r.emitted == [N.ErrorDraft("Connection Failed", Some(wallet.message))]
    ensures wallet.Ok? ==> && r.store.isConnected
                           && r.store.currentAccount == wallet.value
                           && r.store == LoadAll(s.(currentAccount := wallet.value, isConnected := true,
                                                    error := None), loads, admin).store.(isLoading := false)
                           && r.emitted == LoadAll(s.(currentAccount := wallet.value, isConnected := true,
                                                      error := None), loads, admin).emitted
                                           + [N.SuccessDraft("Connected Successfully", Some("MetaMask wallet connected"))]
                           && r.store.error == ErrorAfter(None, FailedLoads(s.(currentAccount := wallet.value),
                                                                            ALL_ENTITIES, loads))
    // every read succeeds: the connection is the only notification and no error is left
    ensures wallet.Ok? && loads.contractInfo.Ok? && loads.voterInfo.Ok? && loads.candidates.Ok? ==>
              r.store.error.None?
              && r.emitted == [N.SuccessDraft("Connected Successfully", Some("MetaMask wallet connected"))]
  {
    var busy := s.(isLoading := true, error := None);
    match wallet
    case Err(m) =>
      var f := Fail(busy, "Connection Failed", m);
      Step(f.store.(isLoading := false), f.emitted)
    case Ok(account) =>
      NoFailedLoads(s.(currentAccount := account), ALL_ENTITIES, loads);
      var loaded := LoadAll(busy.(currentAccount := account, isConnected := true), loads, admin);
      var connected := s.(currentAccount := account, isConnected := true, error := None);
      assert busy.(currentAccount := account, isConnected := true) == connected.(isLoading := true);
      LoadAllIgnoresLoading(connected, loads, admin, true);
      FailedLoadsReadsAccount(connected, s.(currentAccount := account), ALL_ENTITIES, loads);
      Step(loaded.store.(isLoading := false),
           loaded.emitted + [N.SuccessDraft("Connected Successfully", Some("MetaMask wallet connected"))])
  }

  /** No load reads `isLoading`: the loads do the same whether or not it is set. */
  lemma LoadAllIgnoresLoading(s: Store, loads: Loads, admin: Outcome<string>, b: bool)
    ensures LoadAll(s.(isLoading := b), loads, admin).store == LoadAll(s, loads, admin).store.(isLoading := b)
    ensures LoadAll(s.(isLoading := b), loads, admin).emitted == LoadAll(s, loads, admin).emitted
  {
    FailedLoadsReadsAccount(s.(isLoading := b), s, ALL_ENTITIES, loads);
  }

  /** `disconnect`: every cell back to its initial value, except `isLoading`, which
      is left as it is. */
  function Disconnect(s: Store): (r: Store)
    ensures !r.isConnected && r.currentAccount == "" && r.error.None?
    ensures CacheOf(r) == CacheOf(Initial())
    ensures r.isLoading == s.isLoading
  {
    Initial().(isLoading := s.isLoading)
  }

  /** The `accountsChanged` callback registered by `setupListeners`: losing every
      account disconnects; otherwise the first account becomes current and, while
      connected, its voter record is reloaded. Nothing else is reloaded. */
  function AccountsChanged(s: Store, accounts: seq<string>, voter: Outcome<VoterInfo>): (r: Step)
    ensures accounts == [] ==> r.store == Disconnect(s) && r.emitted == []
    ensures accounts != [] ==> r.store.currentAccount == accounts[0]
                               && r.store.isConnected == s.isConnected
                               && r.store.isLoading == s.isLoading
                               && CacheOf(r.store) == CacheOf(s).(voterInfo := r.store.voterInfo)
    ensures accounts != [] && !s.isConnected ==> r.store == s.(currentAccount := accounts[0]) && r.emitted == []
    ensures accounts != [] && s.isConnected ==> r == LoadVoterInfo(s.(currentAccount := accounts[0]), voter)
  {
    if accounts == [] then Step(Disconnect(s), [])
    else
      var switched := s.(currentAccount := accounts[0]);
      if s.isConnected then LoadVoterInfo(switched, voter) else Step(switched, [])
  }

  /* ---------------------------------------------------------------- *
   *  Receipt-gated admin writes
   * ---------------------------------------------------------------- */

  /** The four admin operations; each waits for the transaction receipt. */
  datatype AdminOp =
    | AddCandidate(name: string)
    | AuthorizeVoter(voterAddress: string)
    | EndElection
    | RestartElection

  /** What a confirmed write reloads: the candidate list after adding a candidate,
      the voter record after authorising a voter, the metadata after ending the
      election, and both metadata and candidates after restarting it. */
  function Reloads(op: AdminOp): set<Entity>
  {
    match op
    case AddCandidate(_) => {CandidateList}
    case AuthorizeVoter(_) => {VoterRecord}
    case EndElection => {ElectionInfo}
    case RestartElection => {ElectionInfo, CandidateList}
  }

  /** The title of every failure notification of `op`. */
  function FailureTitle(op: AdminOp): string
  {
    match op
    case AddCandidate(_) => "Add Candidate Failed"
    case AuthorizeVoter(_) => "Authorization Failed"
    case EndElection => "End Election Failed"
    case RestartElection => "Restart Election Failed"
  }

  /** The error recorded when sending `op` or waiting for its receipt throws. */
  function RejectionMessage(op: AdminOp): string
  {
    match op
    case AddCandidate(_) => "Failed to add candidate. Make sure you are the admin."
    case AuthorizeVoter(_) => "Failed to authorize voter. Make sure you are the admin."
    case EndElection => "Failed to end election. Make sure you are the admin."
    case RestartElection => "Failed to restart election. Make sure you are the admin."
  }

  /** The success notification of a confirmed `op`. */
  function SuccessDraftOf(op: AdminOp): N.Draft
  {
    match op
    case AddCandidate(name) =>
      N.SuccessDraft("Candidate Added", Some("Candidate \"" + name + "\" has been added successfully"))
    case AuthorizeVoter(voter) =>
      N.SuccessDraft("Voter Authorized", Some("Voter " + JsText.Slice(voter, 0, 10) + "... has been authorized"))
    case EndElection =>
      N.SuccessDraft("Election Ended", Some("The election has been ended successfully"))
    case RestartElection =>
      N.SuccessDraft("Election Restarted", Some("The election has been restarted successfully"))
  }

  /** The reloads that follow a confirmed `op`; a restart then forgets the winner.
      Only the entities in `Reloads(op)` can change, and only errors are posted. */
  function Reload(s: Store, op: AdminOp, loads: Loads): (r: Step)
    ensures r.store.isConnected == s.isConnected && r.store.currentAccount == s.currentAccount
    ensures r.store.isAdmin == s.isAdmin && r.store.adminAddress == s.adminAddress
    ensures r.store.isLoading == s.isLoading
    ensures r.store.contractInfo == (if ElectionInfo in Reloads(op) && loads.contractInfo.Ok?
                                     then loads.contractInfo.value else s.contractInfo)
    ensures r.store.voterInfo == (if VoterRecord in Reloads(op) && s.currentAccount != "" && loads.voterInfo.Ok?
                                  then loads.voterInfo.value else s.voterInfo)
    ensures r.store.candidates == (if CandidateList in Reloads(op) && loads.candidates.Ok?
                                   then loads.candidates.value else s.candidates)
    ensures r.store.winner == (if op.RestartElection? then None else s.winner)
    ensures r.store.error == ErrorAfter(s.error, FailedLoads(s, Reloads(op), loads))
    ensures r.emitted == FailureDrafts(FailedLoads(s, Reloads(op), loads))
    ensures forall i :: 0 <= i < |r.emitted| ==> r.emitted[i].kind == N.Error
  {
    match op
    case AddCandidate(_) =>
      EachLoadReports(s, loads);
      assert FailedLoads(s, Reloads(op), loads) == FailedLoads(s, {CandidateList}, loads);
      LoadCandidates(s, loads.candidates)
    case AuthorizeVoter(_) =>
      EachLoadReports(s, loads);
      assert FailedLoads(s, Reloads(op), loads) == FailedLoads(s, {VoterRecord}, loads);
      LoadVoterInfo(s, loads.voterInfo)
    case EndElection =>
      EachLoadReports(s, loads);
      assert FailedLoads(s, Reloads(op), loads) == FailedLoads(s, {ElectionInfo}, loads);
      LoadContractInfo(s, loads.contractInfo)
    case RestartElection => RestartReload(s, loads)
  }

  /** The reloads after a confirmed restart: metadata and candidates, in that order,
      then the winner is forgotten. */
  function RestartReload(s: Store, loads: Loads): (r: Step)
    ensures var fs := FailedLoads(s, Reloads(RestartElection), loads);
            && r.store == s.(contractInfo := r.store.contractInfo, candidates := r.store.candidates,
                             winner := None, error := ErrorAfter(s.error, fs))
            && r.emitted == FailureDrafts(fs)
    ensures r.store.contractInfo == (if loads.contractInfo.Ok? then loads.contractInfo.value else s.contractInfo)
    ensures r.store.candidates == (if loads.candidates.Ok? then loads.candidates.value else s.candidates)
  {
    var c := LoadContractInfo(s, loads.contractInfo);
    var k := LoadCandidates(c.store, loads.candidates);
    RestartReportsInOrder(s, loads);
    Step(k.store.(winner := None), c.emitted + k.emitted)
  }

  /** The two reloads of a restart, metadata then candidates, post one error per
      failed read in that order and leave the last failure's message as the error. */
  lemma RestartReportsInOrder(s: Store, loads: Loads)
    ensures var c := LoadContractInfo(s, loads.contractInfo);
            var k := LoadCandidates(c.store, loads.candidates);
            var fs := FailedLoads(s, Reloads(RestartElection), loads);
            c.emitted + k.emitted == FailureDrafts(fs) && k.store.error == ErrorAfter(s.error, fs)
  {
    var c := LoadContractInfo(s, loads.contractInfo);
    var fc := FailedLoads(s, {ElectionInfo}, loads);
    var fk := FailedLoads(s, {CandidateList}, loads);
    EachLoadReports(s, loads);
    EachLoadReports(c.store, loads);
    FailedLoadsReadsAccount(c.store, s, {CandidateList}, loads);
    assert FailedLoads(s, Reloads(RestartElection), loads) == fc + fk;
    FailureDraftsAppend(fc, fk);
    ErrorAfterAppend(s.error, fc, fk);
  }

  /** `addCandidate`, `authorizeVoter`, `endElection` and `restartElection`: without
      an account, nothing happens. Otherwise send the write and wait for its receipt:
      a confirmed write is announced and reloads exactly `Reloads(op)`; a reverted one
      posts an error and reloads nothing; a thrown error is recorded and posted and
      reloads nothing. The store is not loading afterwards. */
  function AdminWrite(s: Store, op: AdminOp, receipt: Outcome<ReceiptStatus>, loads: Loads): (r: Step)
    ensures s.currentAccount == "" ==> r == Step(s, [])
    ensures r.store.isConnected == s.isConnected && r.store.currentAccount == s.currentAccount
    ensures r.store.isAdmin == s.isAdmin && r.store.adminAddress == s.adminAddress
    ensures s.currentAccount != "" ==> !r.store.isLoading
    // the write threw: record and post the rejection; the cache is untouched
    ensures s.currentAccount != "" && receipt.Err? ==>
              && CacheOf(r.store) == CacheOf(s)
              && r.store.error == Some(RejectionMessage(op))
              && PostedOneError(r, FailureTitle(op), RejectionMessage(op))
    // the write was mined but reverted: post the revert; the cache is untouched
    ensures s.currentAccount != "" && receipt.Ok? && !IsTransactionSuccessful(receipt.value) ==>
              && CacheOf(r.store) == CacheOf(s)
              && r.store.error.None?
              && PostedOneError(r, FailureTitle(op), REVERTED)
    // the write was confirmed: announce it first, then reload exactly Reloads(op)
    ensures s.currentAccount != "" && receipt.Ok? && IsTransactionSuccessful(receipt.value) ==>
              && |r.emitted| >= 1 && r.emitted[0] == SuccessDraftOf(op)
              && r.store.contractInfo == (if ElectionInfo in Reloads(op) && loads.contractInfo.Ok?
                                          then loads.contractInfo.value else s.contractInfo)
              && r.store.voterInfo == (if VoterRecord in Reloads(op) && loads.voterInfo.Ok?
                                       then loads.voterInfo.value else s.voterInfo)
              && r.store.candidates == (if CandidateList in Reloads(op) && loads.candidates.Ok?
                                        then loads.candidates.value else s.candidates)
              && r.store.winner == (if op.RestartElection? then None else s.winner)
              && r.emitted == [SuccessDraftOf(op)] + FailureDrafts(FailedLoads(s, Reloads(op), loads))
              && r.store.error == ErrorAfter(None, FailedLoads(s, Reloads(op), loads))
    // confirmed and every reload succeeded: the announcement alone, and no error
    ensures s.currentAccount != "" && receipt.Ok? && IsTransactionSuccessful(receipt.value)
            && loads.contractInfo.Ok? && loads.voterInfo.Ok? && loads.candidates.Ok? ==>
              r.emitted == [SuccessDraftOf(op)] && r.store.error.None?
    // success is announced only for a confirmed write
    ensures PostedSuccess(r) ==> receipt.Ok? && IsTransactionSuccessful(receipt.value)
  {
    if s.currentAccount == "" then Step(s, [])
    else
      var busy := s.(isLoading := true, error := None);
      match receipt
      case Err(_) =>
        var f := Fail(busy, FailureTitle(op), RejectionMessage(op));
        Step(f.store.(isLoading := false), f.emitted)
      case Ok(status) =>
        if IsTransactionSuccessful(status) then
          NoFailedLoads(s, Reloads(op), loads);
          FailedLoadsReadsAccount(busy, s, Reloads(op), loads);
          var reloaded := Reload(busy, op, loads);
          Step(reloaded.store.(isLoading := false), [SuccessDraftOf(op)] + reloaded.emitted)
        else
          Step(busy.(isLoading := false), [N.ErrorDraft(FailureTitle(op), Some(REVERTED))])
  }

  /* ---------------------------------------------------------------- *
   *  Ballots
   * ---------------------------------------------------------------- */

  const VOTE_FAILED: string := "Không thể bỏ phiếu. Vui lòng kiểm tra lại."
  const REVOKE_FAILED: string := "Không thể hủy phiếu. Vui lòng kiểm tra lại."
  const REVOKE_ERROR: string := "Không thể hủy bỏ phiếu."

  /** `castVote` as written: without an account nothing happens. Otherwise, if sending
      the vote throws, the error is recorded and posted; if it does not, the vote-cast
      listener is registered (its effect is not modelled) and the same error
      notification is posted all the same. */
  function CastVote(s: Store, candidateId: nat, sent: Outcome<()>): (r: Step)
    ensures s.currentAccount == "" ==> r == Step(s, [])
    ensures s.currentAccount != "" ==> r.store == s.(isLoading := false, error := r.store.error)
    ensures s.currentAccount != "" ==>
              && !r.store.isLoading
              && CacheOf(r.store) == CacheOf(s)
              && PostedOneError(r, "Lỗi bỏ phiếu", VOTE_FAILED)
              && r.store.error == (if sent.Err? then Some(VOTE_FAILED) else None)
  {
    if s.currentAccount == "" then Step(s, [])
    else
      var busy := s.(isLoading := true, error := None);
      match sent
      case Err(_) =>
        var f := Fail(busy, "Lỗi bỏ phiếu", VOTE_FAILED);
        Step(f.store.(isLoading := false), f.emitted)
      case Ok(_) =>
        Step(busy.(isLoading := false), [N.ErrorDraft("Lỗi bỏ phiếu", Some(VOTE_FAILED))])
  }

  /** `castVote` as evidently intended: the failure notification only when sending
      the vote failed. The success notification and the reloads belong to the
      vote-cast event, which is not modelled. */
  function CastVoteCorrected(s: Store, candidateId: nat, sent: Outcome<()>): (r: Step)
    ensures s.currentAccount == "" ==> r == Step(s, [])
    ensures s.currentAccount != "" ==> r.store == s.(isLoading := false, error := r.store.error)
    ensures s.currentAccount != "" ==>
              && !r.store.isLoading
              && CacheOf(r.store) == CacheOf(s)
              && (sent.Err? ==> r.store.error == Some(VOTE_FAILED) && PostedOneError(r, "Lỗi bỏ phiếu", VOTE_FAILED))
              && (sent.Ok? ==> r.store.error.None? && r.emitted == [])
  {
    if s.currentAccount == "" then Step(s, [])
    else
      var busy := s.(isLoading := true, error := None);
      match sent
      case Err(_) =>
        var f := Fail(busy, "Lỗi bỏ phiếu", VOTE_FAILED);
        Step(f.store.(isLoading := false), f.emitted)
      case Ok(_) => Step(busy.(isLoading := false), [])
  }

  /** `revokeVote` as written: like `castVote`, the failure notification
      "Lỗi hủy phiếu" is posted even when sending the revocation succeeded; a thrown
      error is recorded and posted under its own, English, title. */
  function RevokeVote(s: Store, candidateId: nat, sent: Outcome<()>): (r: Step)
    ensures s.currentAccount == "" ==> r == Step(s, [])
    ensures s.currentAccount != "" ==> r.store == s.(isLoading := false, error := r.store.error)
    ensures s.currentAccount != "" ==>
              && !r.store.isLoading
              && CacheOf(r.store) == CacheOf(s)
              && (sent.Ok? ==> r.store.error.None? && PostedOneError(r, "Lỗi hủy phiếu", REVOKE_FAILED))
              && (sent.Err? ==> r.store.error == Some(REVOKE_ERROR)
                                && PostedOneError(r, "Revoke Failed", "Failed to revoke vote."))
  {
    if s.currentAccount == "" then Step(s, [])
    else
      var busy := s.(isLoading := true, error := None);
      match sent
      case Err(_) =>
        Step(busy.(error := Some(REVOKE_ERROR), isLoading := false),
             [N.ErrorDraft("Revoke Failed", Some("Failed to revoke vote."))])
      case Ok(_) =>
        Step(busy.(isLoading := false), [N.ErrorDraft("Lỗi hủy phiếu", Some(REVOKE_FAILED))])
  }

  /** `revokeVote` as evidently intended: an error is posted only when sending the
      revocation failed. */
  function RevokeVoteCorrected(s: Store, candidateId: nat, sent: Outcome<()>): (r: Step)
    ensures s.currentAccount == "" ==> r == Step(s, [])
    ensures s.currentAccount != "" ==> r.store == s.(isLoading := false, error := r.store.error)
    ensures s.currentAccount != "" ==>
              && !r.store.isLoading
              && CacheOf(r.store) == CacheOf(s)
              && (sent.Err? ==> r.store.error == Some(REVOKE_ERROR)
                                && PostedOneError(r, "Revoke Failed", "Failed to revoke vote."))
              && (sent.Ok? ==> r.store.error.None? && r.emitted == [])
  {
    if s.currentAccount == "" then Step(s, [])
    else
      var busy := s.(isLoading := true, error := None);
      match sent
      case Err(_) =>
        Step(busy.(error := Some(REVOKE_ERROR), isLoading := false),
             [N.ErrorDraft("Revoke Failed", Some("Failed to revoke vote."))])
      case Ok(_) => Step(busy.(isLoading := false), [])
  }

  /* ---------------------------------------------------------------- *
   *  Properties across operations
   * ---------------------------------------------------------------- */

  /** As written, a vote that was sent without error posts exactly the notification a
      vote that failed to send posts: the user is told the vote failed either way. */
  lemma CastVoteReportsFailureOnSuccess(s: Store, candidateId: nat, m: string)
    requires s.currentAccount != ""
    ensures CastVote(s, candidateId, Ok(())).emitted == CastVote(s, candidateId, Err(m)).emitted
    ensures CastVote(s, candidateId, Ok(())).emitted[0].kind == N.Error
  {
  }

  /** As written, a revocation that was sent without error still posts an error. */
  lemma RevokeVoteReportsFailureOnSuccess(s: Store, candidateId: nat)
    requires s.currentAccount != ""
    ensures RevokeVote(s, candidateId, Ok(())).emitted[0].kind == N.Error
  {
  }

  /** In the corrected ballots, an error notification is posted exactly when
      sending failed. */
  lemma CorrectedBallotsReportOnlyFailures(s: Store, candidateId: nat, sent: Outcome<()>)
    requires s.currentAccount != ""
    ensures (exists i :: 0 <= i < |CastVoteCorrected(s, candidateId, sent).emitted|
                        && CastVoteCorrected(s, candidateId, sent).emitted[i].kind == N.Error) <==> sent.Err?
    ensures (exists i :: 0 <= i < |RevokeVoteCorrected(s, candidateId, sent).emitted|
                        && RevokeVoteCorrected(s, candidateId, sent).emitted[i].kind == N.Error) <==> sent.Err?
  {
    if sent.Err? {
      assert CastVoteCorrected(s, candidateId, sent).emitted[0].kind == N.Error;
      assert RevokeVoteCorrected(s, candidateId, sent).emitted[0].kind == N.Error;
    }
  }

  /** `disconnect` forgets everything: two stores that differ in anything but
      `isLoading` disconnect to the same store, and disconnecting twice is
      disconnecting once. Afterwards nobody can vote, nobody is admin and no short
      address is shown. */
  lemma DisconnectForgets(s: Store, t: Store)
    requires s.isLoading == t.isLoading
    ensures Disconnect(s) == Disconnect(t)
    ensures Disconnect(Disconnect(s)) == Disconnect(s)
    ensures !CanVote(Disconnect(s)) && !IsCurrentUserAdmin(Disconnect(s))
    ensures ShortAddress(Disconnect(s).currentAccount) == ""
  {
  }

  /** The four loads of `connect` in the reverse of array order. */
  function LoadAllReversed(s: Store, loads: Loads, admin: Outcome<string>): Step
  {
    var a := LoadAdminInfo(s, admin);
    var k := LoadCandidates(a.store, loads.candidates);
    var v := LoadVoterInfo(k.store, loads.voterInfo);
    var c := LoadContractInfo(v.store, loads.contractInfo);
    Step(c.store, a.emitted + k.emitted + v.emitted + c.emitted)
  }

  /** The four loads of `connect` write disjoint fields, so the cached election they
      leave does not depend on the order in which they complete: running them in
      reverse gives the same cache and posts the same notifications, possibly in a
      different order. */
  lemma LoadsCommute(s: Store, loads: Loads, admin: Outcome<string>)
    ensures CacheOf(LoadAllReversed(s, loads, admin).store) == CacheOf(LoadAll(s, loads, admin).store)
    ensures multiset(LoadAllReversed(s, loads, admin).emitted) == multiset(LoadAll(s, loads, admin).emitted)
  {
    LoadEmissions(s, loads, admin);
    LoadEmissionsReversed(s, loads, admin);
    MultisetOfReversal(LoadCandidates(s, loads.candidates).emitted, LoadVoterInfo(s, loads.voterInfo).emitted,
                       LoadContractInfo(s, loads.contractInfo).emitted);
  }

  /** One of the four loads `connect` starts together, named by what it reads. */
  datatype Load = ContractLoad | VoterLoad | CandidatesLoad | AdminLoad

  /** The effect of one load once its read has settled. */
  function LoadOne(s: Store, loads: Loads, admin: Outcome<string>, l: Load): (r: Step)
    ensures r.store.currentAccount == s.currentAccount && r.store.winner == s.winner
  {
    match l
    case ContractLoad => LoadContractInfo(s, loads.contractInfo)
    case VoterLoad => LoadVoterInfo(s, loads.voterInfo)
    case CandidatesLoad => LoadCandidates(s, loads.candidates)
    case AdminLoad => LoadAdminInfo(s, admin)
  }

  /** The loads applied in `order`, the order in which their reads settle. */
  function RunLoads(s: Store, loads: Loads, admin: Outcome<string>, order: seq<Load>): (r: Step)
    ensures r.store.currentAccount == s.currentAccount && r.store.winner == s.winner
    decreases |order|
  {
    if order == [] then Step(s, [])
    else
      var first := LoadOne(s, loads, admin, order[0]);
      var rest := RunLoads(first.store, loads, admin, order[1..]);
      Step(rest.store, first.emitted + rest.emitted)
  }

  /** The cache left by the loads in `order`, stated entity by entity: an entity
      whose load ran holds what that load read, or its earlier value if the read
      failed; any other entity keeps its earlier value. */
  function Loaded(s: Store, loads: Loads, admin: Outcome<string>, order: seq<Load>): Cache
  {
    Cache(
      if ContractLoad in order && loads.contractInfo.Ok? then loads.contractInfo.value else s.contractInfo,
      if VoterLoad in order && s.currentAccount != "" && loads.voterInfo.Ok? then loads.voterInfo.value
      else s.voterInfo,
      if CandidatesLoad in order && loads.candidates.Ok? then loads.candidates.value else s.candidates,
      s.winner,
      if AdminLoad in order then admin.Ok? else s.isAdmin,
      if AdminLoad in order && admin.Ok? then admin.value else s.adminAddress)
  }

  /** The cache a run of loads leaves depends only on which loads ran, not on the
      order they settled in nor on a load repeating. */
  lemma {:induction false} RunLoadsCache(s: Store, loads: Loads, admin: Outcome<string>, order: seq<Load>)
    ensures CacheOf(RunLoads(s, loads, admin, order).store) == Loaded(s, loads, admin, order)
    decreases |order|
  {
    if order != [] {
      var first := LoadOne(s, loads, admin, order[0]);
      RunLoadsCache(first.store, loads, admin, order[1..]);
      LoadedAfterOne(s, loads, admin, order[0], order[1..]);
      assert order == [order[0]] + order[1..];
    }
  }

  /** One step of `RunLoadsCache`: running load `l` first and then `rest` is, for the
      cache, the same as running them all from the earlier store. */
  lemma LoadedAfterOne(s: Store, loads: Loads, admin: Outcome<string>, l: Load, rest: seq<Load>)
    ensures Loaded(LoadOne(s, loads, admin, l).store, loads, admin, rest) == Loaded(s, loads, admin, [l] + rest)
  {
    var t := LoadOne(s, loads, admin, l).store;
    var all := [l] + rest;
    assert forall m: Load :: m in all <==> m == l || m in rest;
    match l
    case ContractLoad =>
      assert t == s.(contractInfo := t.contractInfo, error := t.error);
    case VoterLoad =>
      assert t == s.(voterInfo := t.voterInfo, error := t.error);
    case CandidatesLoad =>
      assert t == s.(candidates := t.candidates, error := t.error);
    case AdminLoad =>
      assert t == s.(isAdmin := t.isAdmin, adminAddress := t.adminAddress);
  }

  /** Whatever order the four reads of `Promise.all` settle in, the cached election
      is the one `LoadAll` leaves in array order. */
  lemma EveryCompletionOrderAgrees(s: Store, loads: Loads, admin: Outcome<string>, order: seq<Load>)
    requires forall l: Load :: l in order
    ensures CacheOf(RunLoads(s, loads, admin, order).store) == CacheOf(LoadAll(s, loads, admin).store)
  {
    RunLoadsCache(s, loads, admin, order);
    assert ContractLoad in order && VoterLoad in order && CandidatesLoad in order && AdminLoad in order;
  }

  /** A load posts the same on any two stores with the same current account. */
  lemma LoadPostsAlike(s: Store, t: Store, loads: Loads)
    requires s.currentAccount == t.currentAccount
    ensures LoadContractInfo(s, loads.contractInfo).emitted == LoadContractInfo(t, loads.contractInfo).emitted
    ensures LoadVoterInfo(s, loads.voterInfo).emitted == LoadVoterInfo(t, loads.voterInfo).emitted
    ensures LoadCandidates(s, loads.candidates).emitted == LoadCandidates(t, loads.candidates).emitted
  {
  }

  /** What the loads post in array order. */
  lemma LoadEmissions(s: Store, loads: Loads, admin: Outcome<string>)
    ensures LoadAll(s, loads, admin).emitted
            == LoadContractInfo(s, loads.contractInfo).emitted + LoadVoterInfo(s, loads.voterInfo).emitted
               + LoadCandidates(s, loads.candidates).emitted
  {
    var c := LoadContractInfo(s, loads.contractInfo);
    var v := LoadVoterInfo(c.store, loads.voterInfo);
    LoadPostsAlike(s, c.store, loads);
    LoadPostsAlike(s, v.store, loads);
  }

  /** What the loads post in reverse order. */
  lemma LoadEmissionsReversed(s: Store, loads: Loads, admin: Outcome<string>)
    ensures LoadAllReversed(s, loads, admin).emitted
            == LoadCandidates(s, loads.candidates).emitted + LoadVoterInfo(s, loads.voterInfo).emitted
               + LoadContractInfo(s, loads.contractInfo).emitted
  {
    var a := LoadAdminInfo(s, admin);
    var k := LoadCandidates(a.store, loads.candidates);
    var v := LoadVoterInfo(k.store, loads.voterInfo);
    LoadPostsAlike(s, a.store, loads);
    LoadPostsAlike(s, k.store, loads);
    LoadPostsAlike(s, v.store, loads);
    assert a.emitted == [];
  }

  /** Three pieces concatenated in either order hold the same elements. */
  lemma MultisetOfReversal<T>(x: seq<T>, y: seq<T>, z: seq<T>)
    ensures multiset(x + y + z) == multiset(z + y + x)
  {
    calc {
      multiset(x + y + z);
      multiset(x + y) + multiset(z);
      multiset(x) + multiset(y) + multiset(z);
      multiset(z + y) + multiset(x);
      multiset(z + y + x);
    }
  }

  /** Without a wallet extension, `connect` fails with the installation message and
      leaves the connection and the cached election as they were. */
  lemma ConnectWithoutMetaMask(s: Store, loads: Loads, admin: Outcome<string>)
    ensures var r := Connect(s, MetaMask.ConnectToMetaMask(None).result, loads, admin);
            && r.store.isConnected == s.isConnected
            && r.store.currentAccount == s.currentAccount
            && CacheOf(r.store) == CacheOf(s)
            && r.store.error == Some(MetaMask.NOT_INSTALLED)
            && r.emitted == [N.ErrorDraft("Connection Failed", Some(MetaMask.NOT_INSTALLED))]
  {
  }

  /** A connection whose admin read returns the connecting account, in whatever
      letter case, makes the user admin. */
  lemma ConnectAsAdmin(s: Store, account: string, loads: Loads, admin: string)
    requires JsText.Lower(admin) == JsText.Lower(account)
    ensures IsCurrentUserAdmin(Connect(s, Ok(account), loads, Ok(admin)).store)
  {
    var r := Connect(s, Ok(account), loads, Ok(admin)).store;
    assert r.currentAccount == account && r.adminAddress == admin && r.isAdmin;
    assert forall i :: 0 <= i < |account| ==> JsText.Lower(account)[i] == JsText.Lower(admin)[i];
  }

  /** A reverted or rejected write never reloads: for every operation, the cached
      election afterwards is the one before, and no success is announced. */
  lemma FailedWriteReloadsNothing(s: Store, op: AdminOp, receipt: Outcome<ReceiptStatus>, loads: Loads)
    requires receipt.Err? || !IsTransactionSuccessful(receipt.value)
    ensures CacheOf(AdminWrite(s, op, receipt, loads).store) == CacheOf(s)
    ensures !PostedSuccess(AdminWrite(s, op, receipt, loads))
  {
  }
}

=== FILE: voting_store.dfy ===
/** The state of src/composables/useVoting.ts and what is derived from it.

    The program keeps ten reactive cells at module level; here they are the fields
    of one immutable `Store`. The computed values `shortAddress`, `canVote` and
    `isCurrentUserAdmin`, and the receipt check `isTransactionSuccessful`, are pure
    functions of it.
 */
module VotingStore {
  import opened Results
  import JsText
  import opened ContractApi

  datatype Store = Store(
    isConnected: bool,
    currentAccount: string,     // "" when no account is selected
    contractInfo: ContractInfo,
    voterInfo: VoterInfo,
    candidates: seq<Candidate>,
    winner: Option<Winner>,
    isLoading: bool,
    error: Option<string>,
    isAdmin: bool,
    adminAddress: string
  )

  const EMPTY_CONTRACT_INFO: ContractInfo := ContractInfo("", 0, 0, 0, 0)
  const EMPTY_VOTER_INFO: VoterInfo := VoterInfo(false, 0)

  /** The value every cell starts with. */
  function Initial(): (s: Store)
    ensures !s.isConnected && s.currentAccount == "" && !s.isLoading && !s.isAdmin
  {
    Store(false, "", EMPTY_CONTRACT_INFO, EMPTY_VOTER_INFO, [], None, false, None, false, "")
  }

  /** The fields a ledger read fills in, as one value: two stores with the same
      cache show the same election to the user. */
  datatype Cache = Cache(contractInfo: ContractInfo, voterInfo: VoterInfo, candidates: seq<Candidate>,
                         winner: Option<Winner>, isAdmin: bool, adminAddress: string)

  function CacheOf(s: Store): Cache
  {
    Cache(s.contractInfo, s.voterInfo, s.candidates, s.winner, s.isAdmin, s.adminAddress)
  }

  /** `shortAddress`: empty without an account; otherwise `slice(0, 6)`, an ellipsis
      and `slice(-4)`, that is the first six and the last four characters, or the
      whole account where it is shorter than that. */
  function ShortAddress(account: string): (r: string)
    ensures account == "" ==> r == ""
    ensures account != "" ==>
              var head := if |account| < 6 then |account| else 6;
              var tail := if |account| < 4 then |account| else 4;
              && |r| == head + 3 + tail
              && r[..head] == account[..head]
              && r[head..head + 3] == "..."
              && r[head + 3..] == account[|account| - tail..]
  {
    if account == "" then ""
    else
      JsText.SlicePrefix(account, 6);
      JsText.SliceSuffix(account, 4);
      JsText.Slice(account, 0, 6) + "..." + JsText.SliceFrom(account, -4)
  }

  /** `canVote`: an authorised voter with votes left. */
  function CanVote(s: Store): (r: bool)
    ensures r ==> s.voterInfo.authorized
    ensures r <==> s.voterInfo.authorized && s.contractInfo.maxVotesPerVoter - s.voterInfo.votesCast > 0
  {
    s.voterInfo.authorized && s.voterInfo.votesCast < s.contractInfo.maxVotesPerVoter
  }

  /** `isCurrentUserAdmin`: the admin read succeeded and the current account is the
      admin address, compared without regard to letter case. */
  function IsCurrentUserAdmin(s: Store): (r: bool)
    ensures r ==> s.isAdmin
    ensures r <==> s.isAdmin && |s.currentAccount| == |s.adminAddress|
                   && forall i :: 0 <= i < |s.currentAccount| ==>
                        JsText.LowerChar(s.currentAccount[i]) == JsText.LowerChar(s.adminAddress[i])
  {
    var a := JsText.Lower(s.currentAccount);
    var b := JsText.Lower(s.adminAddress);
    assert a == b <==> |a| == |b| && forall i :: 0 <= i < |a| ==> a[i] == b[i];
    s.isAdmin && a == b
  }

  /** The `status` field of a transaction receipt, by JavaScript type. Different web3
      versions report it as a number, a boolean, a hexadecimal string or a bigint. */
  datatype ReceiptStatus =
    | NumberStatus(n: int)
    | BooleanStatus(b: bool)
    | StringStatus(s: string)
    | BigIntStatus(big: int)
    | NoStatus                  // null, undefined or any other value

  /** `isTransactionSuccessful`: `status === 1 || status === true || status === '0x1'`.
      Strict equality never equates values of different types, so the bigint `1n`
      and the string `"1"` are not successes. */
  function IsTransactionSuccessful(status: ReceiptStatus): (r: bool)
    ensures r <==> status in {NumberStatus(1), BooleanStatus(true), StringStatus("0x1")}
  {
    match status
    case NumberStatus(n) => n == 1
    case BooleanStatus(b) => b
    case StringStatus(s) => s == "0x1"
    case BigIntStatus(_) => false
    case NoStatus => false
  }

  /* ---------------------------------------------------------------- *
   *  Properties of the derived values
   * ---------------------------------------------------------------- */

  /** For an account of ten or more characters (a full address has 42), the short form
      is the first six and last four characters around an ellipsis: thirteen in all. */
  lemma ShortAddressOfFullAddress(account: string)
    requires |account| >= 10
    ensures ShortAddress(account) == account[..6] + "..." + account[|account| - 4..]
    ensures |ShortAddress(account)| == 13
  {
    JsText.SlicePrefix(account, 6);
    JsText.SliceSuffix(account, 4);
  }

  /** For a short account the two slices overlap or cover it whole, as JavaScript's
      `slice` clamps its indices instead of failing. */
  lemma ShortAddressOfShortAccount(account: string)
    requires 0 < |account| < 4
    ensures ShortAddress(account) == account + "..." + account
  {
    JsText.SlicePrefix(account, 6);
    JsText.SliceSuffix(account, 4);
  }

  /** Letter case never matters to `isCurrentUserAdmin`: the account and the admin
      address may each be respelled in any way with the same lower-case form, as
      when a lower-case wallet account meets a mixed-case (EIP-55) admin address. */
  lemma AdminCheckIgnoresCase(s: Store, spelling: string, adminSpelling: string)
    requires JsText.Lower(spelling) == JsText.Lower(s.currentAccount)
    requires JsText.Lower(adminSpelling) == JsText.Lower(s.adminAddress)
    ensures IsCurrentUserAdmin(s.(currentAccount := spelling)) == IsCurrentUserAdmin(s)
    ensures IsCurrentUserAdmin(s.(adminAddress := adminSpelling)) == IsCurrentUserAdmin(s)
    ensures IsCurrentUserAdmin(s.(currentAccount := spelling, adminAddress := adminSpelling)) == IsCurrentUserAdmin(s)
  {
  }

  /** The receipt encodings the store meets: the three success encodings of the
      different web3 versions, and their failure counterparts. */
  lemma ReceiptEncodings()
    ensures IsTransactionSuccessful(NumberStatus(1))
    ensures IsTransactionSuccessful(BooleanStatus(true))
    ensures IsTransactionSuccessful(StringStatus("0x1"))
    ensures !IsTransactionSuccessful(NumberStatus(0))
    ensures !IsTransactionSuccessful(BooleanStatus(false))
    ensures !IsTransactionSuccessful(StringStatus("0x0"))
    ensures !IsTransactionSuccessful(StringStatus("1"))
    ensures !IsTransactionSuccessful(BigIntStatus(1))
  {
  }
}
